=== FILE: README.md ===
# VibeFlow task tracker — a Dafny model of its logic

VibeFlow is a browser-local, gamified task tracker. Users keep categories and
tasks, mark tasks complete on particular days and earn points. Everything is
held in memory and mirrored into the browser's IndexedDB database. The session
email and the theme go into `localStorage`.

This project models the logic under the user interface:

- **Record store** (`db.dfy`, module `Db`). It has three keyed collections: users
  keyed by email, tasks and categories keyed by id. The collections sit behind one
  connection that has to be opened first. The operations are open/upgrade, put and
  get for users, and clear-and-rewrite plus list-all for tasks and categories. Host
  failures are part of the `Db` value: `available` says whether the database
  opens, and `failing` lists the collections whose requests are rejected. A
  rejected request returns `Err` and leaves the store unchanged, because an
  IndexedDB transaction aborts as a whole.
- **Completion ledger** (`ledger.dfy`, module `Ledger`). The calendar and the
  dashboard share this logic. A task is "completed on a day" when one of its
  timestamps ("stamps") starts with the day key. Toggling a task either drops
  all of that day's stamps or appends one stamp, and adjusts the user's
  `totalPoints`: it adds the task's points, or subtracts them with a floor of 0.
  Day totals count each task once.
- **Pages**:
  - `calendar.dfy`: the selected-day list.
  - `dashboard.dfy`: today's points, today's toggle, the category tabs and the task filter.
  - `settings.dfy`: adding and removing tasks and categories, enabling and disabling categories, the per-category task count.
  - `analytics.dfy`: the weekly bars and the per-category distribution.
  - `login.dfy`: the login/signup decision.
- **Application shell** (`app.dfy`, module `App`). It covers loading at startup
  with the fallback to the four default categories, the sync step that mirrors
  memory into the store and is skipped while loading, logout, and the theme
  switch. `localStorage` is a `map<string, string>`.

The general helpers are in `seqs.dfy`: order-preserving `Filter`, `SumBy` (a
left-to-right `reduce`) and their lemmas. `wrappers.dfy` holds `Option` and
`Result`, and `types.dfy` holds the records and the default categories.

Day keys, timestamps, fresh ids and "now" are parameters. The model does not
compute them. Integers are unbounded.

## Model

| member | source | states |
|---|---|---|
| `Db.Upgrade` | vibeflow-productivity/db.ts:14-25 | all three collections exist afterwards; a collection that already existed keeps its contents, and a missing one starts empty |
| `Db.UpgradeIdempotent` | vibeflow-productivity/db.ts:14-25 | running the upgrade twice is the same as running it once |
| `Db.Init` | vibeflow-productivity/db.ts:10-34 | fails with the open error exactly when the host refuses; otherwise the connection is kept, all collections exist, and stored contents are preserved |
| `Db.InitIdempotent` | vibeflow-productivity/db.ts:10-34 | opening an already opened store gives the same store |
| `Db.GetStore` | vibeflow-productivity/db.ts:36-40 | fails with "not initialised" whenever no connection exists; succeeds exactly when connected and the collection exists |
| `Db.SaveUser` | vibeflow-productivity/db.ts:43-50 | succeeds exactly when the users collection serves requests; stores the whole record under its email, leaves other emails and the other collections alone |
| `Db.GetUser` | vibeflow-productivity/db.ts:52-59 | an absent email reads as `None`, not as an error; a present one yields the stored record; fails when not connected |
| `Db.SaveThenGetUser` | vibeflow-productivity/db.ts:43-59 | reading back the saved email yields exactly the saved record; other emails read as before |
| `Db.SnapshotKeys` | vibeflow-productivity/db.ts:67-69 | after clear-and-rewrite the key set is exactly the ids of the written records: no residue, empty input gives an empty collection |
| `Db.SnapshotValues` | vibeflow-productivity/db.ts:67-69 | every stored record is one of those written and sits under its own id |
| `Db.SnapshotLastWins` | vibeflow-productivity/db.ts:68-69 | among records with the same id, the one written last is stored |
| `Db.SaveTasks` | vibeflow-productivity/db.ts:62-74 | succeeds exactly when the tasks collection serves requests; the null connection is its own error; replaces the whole collection with the snapshot; users and categories are untouched |
| `Db.SaveCategories` | vibeflow-productivity/db.ts:86-95 | the same clear-and-rewrite contract for categories |
| `Db.AllValues` | vibeflow-productivity/db.ts:79-80 | lists every record of a collection exactly once: there is a sequence of the collection's keys, each key once, whose records are the entries position by position |
| `Db.ListsCountsPerKey` | vibeflow-productivity/db.ts:79-80 | a listing counts records per key: two different keys give entries at two different positions, even when they hold equal records |
| `Db.GetTasks` | vibeflow-productivity/db.ts:76-83 | fails when not connected; otherwise lists the stored tasks, and an empty collection gives an empty list |
| `Db.GetCategories` | vibeflow-productivity/db.ts:97-104 | the same for categories |
| `Db.SnapshotSize` | vibeflow-productivity/db.ts:62-74 | with distinct ids the rewritten collection has as many records as were written |
| `Db.ReplaceAllThenList` | vibeflow-productivity/db.ts:62-83 | with distinct ids, rewriting and then listing gives back exactly the written records |
| `Db.SnapshotOfListing` | vibeflow-productivity/db.ts:62-104 | rewriting a collection with a listing of its own records gives back the same collection |
| `Db.WritesKeepKeys` | vibeflow-productivity/db.ts:17-23 | opening and every save keep users under their email and tasks and categories under their id |
| `Ledger.HasStampOn` | vibeflow-productivity/pages/CalendarView.tsx:30 | true exactly when some stamp starts with the day key |
| `Ledger.RemoveDay` | vibeflow-productivity/pages/CalendarView.tsx:44 | keeps exactly the stamps not on the day, and none on the day remains |
| `Ledger.RemoveDayKeepsOrder` | vibeflow-productivity/pages/CalendarView.tsx:44 | the remaining stamps keep their order: dropping a day distributes over concatenation, and a list with no stamp on the day is left as it is |
| `Ledger.PointsForDay` | vibeflow-productivity/pages/CalendarView.tsx:27-33 | the left-to-right accumulation equals the day total: the sum of points of the tasks completed on the day, each once |
| `Ledger.FindTask` | vibeflow-productivity/pages/CalendarView.tsx:37-38 | `None` exactly when no task has the id; otherwise the first index with that id |
| `Ledger.Toggle` | vibeflow-productivity/pages/CalendarView.tsx:35-55 | unknown id: nothing changes. Otherwise it follows the first task with the id. If that task is completed on the day, all the day's stamps are dropped and points are subtracted, clamped at 0. If not, one stamp is appended and points are added. Every task with that id gets the new list, nothing else changes, and a missing user stays missing |
| `Ledger.ToggleUpdatesOne` | vibeflow-productivity/pages/CalendarView.tsx:54 | with unique ids, a toggle changes only the toggled task's stamps |
| `Ledger.RemoveDayUndoesAppend` | vibeflow-productivity/pages/CalendarView.tsx:44-50 | dropping a day's stamps undoes appending a stamp on a day that had none |
| `Ledger.ToggleMovesDayTotal` | vibeflow-productivity/pages/CalendarView.tsx:27-55 | with unique ids and a stamp on the day, completing raises that day's total by the task's points and un-completing lowers it by the same amount |
| `Ledger.SecondToggleRestores` | vibeflow-productivity/pages/CalendarView.tsx:40-54 | with unique ids, toggling again a task that was just completed on the day with an on-day stamp gives back the task list from before the first toggle |
| `Ledger.CreditRoundTrip` | vibeflow-productivity/pages/CalendarView.tsx:45-51 | adding a task's points and then taking them back with the floor at 0 restores the user, when neither the total nor the points are negative |
| `Ledger.ToggleRoundTrip` | vibeflow-productivity/pages/CalendarView.tsx:40-54 | completing then un-completing on the same day restores the task list. It also restores the user's total when the total and the points are non-negative |
| `Ledger.RepeatStampKeepsDayTotal` | vibeflow-productivity/pages/CalendarView.tsx:29-32 | another stamp on a day a task is already completed leaves that day's total unchanged |
| `CalendarView.SelectedDayTasks` | vibeflow-productivity/pages/CalendarView.tsx:60-67 | empty with no selected day; otherwise one entry per task, in order, flagged exactly when a stamp starts with the day key |
| `CalendarView.SelectedDayMatchesDayTotal` | vibeflow-productivity/pages/CalendarView.tsx:27-67 | the points of the flagged entries add up to the calendar cell's day total |
| `Dashboard.DailyPoints` | vibeflow-productivity/pages/Dashboard.tsx:21-26 | today's points are today's day total, each task once |
| `Dashboard.HandleTaskToggle` | vibeflow-productivity/pages/Dashboard.tsx:28-59 | unknown id: nothing changes. Un-completing drops exactly today's stamps and keeps the others in order, and subtracts points, clamped at 0. Completing appends exactly the current stamp and adds points. Only the stamp lists of the tasks with the id and the user's total change; other tasks, the task's other fields and the user's other fields are untouched |
| `Dashboard.ToggleMovesDailyPoints` | vibeflow-productivity/pages/Dashboard.tsx:21-40 | with unique ids, today's points move by exactly the toggled task's points |
| `Dashboard.ActiveCategories` | vibeflow-productivity/pages/Dashboard.tsx:61 | contains exactly the enabled categories |
| `Dashboard.FilteredTasks` | vibeflow-productivity/pages/Dashboard.tsx:62 | contains exactly the tasks of the selected category |
| `Dashboard.ListsKeepOrder` | vibeflow-productivity/pages/Dashboard.tsx:61-62 | both lists keep the original order: they distribute over concatenation |
| `Settings.AddTask` | vibeflow-productivity/pages/Settings.tsx:21-34 | an empty name leaves the list unchanged. Otherwise one task is appended after the old list, with the given fields and no completions |
| `Settings.AddCategory` | vibeflow-productivity/pages/Settings.tsx:36-48 | an empty name leaves the list unchanged. Otherwise one enabled category is appended after the old list |
| `Settings.RemoveTask` | vibeflow-productivity/pages/Settings.tsx:50-52 | no task with the id remains, and every other task is kept |
| `Settings.RemoveTaskKeepsOrder` | vibeflow-productivity/pages/Settings.tsx:50-52 | removal keeps the order, and removing an id no task has changes nothing |
| `Settings.AddThenRemoveTask` | vibeflow-productivity/pages/Settings.tsx:21-52 | adding under a fresh id and then removing that id gives back the original list |
| `Settings.RemoveCategory` | vibeflow-productivity/pages/Settings.tsx:54-57 | no category with the id and no task filed under it remain; every other category and task is kept |
| `Settings.RemoveCategoryKeepsOrder` | vibeflow-productivity/pages/Settings.tsx:54-57 | the remaining categories and tasks keep their order: removal distributes over concatenating catalogues, and a catalogue that does not mention the id is left as it is |
| `Settings.RemoveCategoryEmptiesCount` | vibeflow-productivity/pages/Settings.tsx:54-57 | after removal, the removed category's task count is 0 |
| `Settings.ToggleCategory` | vibeflow-productivity/pages/Settings.tsx:59-61 | only the enabled flag of categories with the id flips; everything else is unchanged |
| `Settings.ToggleCategoryInvolution` | vibeflow-productivity/pages/Settings.tsx:59-61 | toggling twice is the identity |
| `Settings.AddTaskCounts` | vibeflow-productivity/pages/Settings.tsx:100 | adding a named task raises its category's count by one and leaves other counts alone |
| `Settings.InitialDraftLandsInFirstTab` | vibeflow-productivity/pages/Settings.tsx:16-31 | a task added from the form's defaults, once named, is filed under the first category (the empty id when there is none), shows in the tab the dashboard opens on (Dashboard.tsx line 17), and raises that category's count by one |
| `Analytics.WeeklyData` | vibeflow-productivity/pages/Analytics.tsx:14-31 | seven entries named Sun..Sat in order; each carries the day total of its day key, each task once |
| `Analytics.DistributionData` | vibeflow-productivity/pages/Analytics.tsx:33-41 | at most one slice per category, only positive values; every category with a positive total has its slice |
| `Analytics.DistributionKeepsOrder` | vibeflow-productivity/pages/Analytics.tsx:34-40 | slices come in category order |
| `Analytics.CompletionValueAppend` | vibeflow-productivity/pages/Analytics.tsx:37 | one more stamp adds the task's points to its completion value |
| `Analytics.ExtraStampRaisesCategoryValue` | vibeflow-productivity/pages/Analytics.tsx:35-38 | every stamp counts in the category share, same-day repeats included |
| `App.RestoreUser` | vibeflow-productivity/App.tsx:30-34 | a user is restored exactly when a non-empty session email is set and the store holds a user under it; that stored record is the one restored |
| `App.InitApp` | vibeflow-productivity/App.tsx:25-54 | loading always ends. If opening fails, the state keeps its start values. Stored categories are loaded, or the four defaults when none are stored. A failure stops the sequence and keeps what was already set |
| `App.SyncToDb` | vibeflow-productivity/App.tsx:61-81 | does nothing while loading. It succeeds exactly when every save goes through. On success the stores hold the current snapshots and the user, under its email, and the session and theme are recorded. Every other stored user is left as it was. A failure is swallowed, and saves after it are not made. Saves completed before the failure stay: the user and the session when the users collection served, and the category snapshot when the categories collection served too. The rejected save changes nothing: rejected categories are left as they were, and so are rejected tasks |
| `App.SyncRecovers` | vibeflow-productivity/App.tsx:61-84 | whatever a failed step left behind (a failed user save, category rewrite or task rewrite), once the host serves the collections again the next step succeeds and writes the then-current user, categories and tasks |
| `App.TaskRewriteFailureRecovers` | vibeflow-productivity/App.tsx:66-76 | a concrete run in which the task rewrite fails after the user, the session and a one-category list were saved; those saves stay. The rejected rewrite leaves the stale stored task in place, and the next step, on a recovered host, replaces it with the current tasks |
| `App.SyncThenReload` | vibeflow-productivity/App.tsx:24-84 | after a successful sync, the next startup runs to its end unless it must read a remembered session from a rejecting user collection. It restores the same user and theme (an empty email or theme is not remembered) and, with unique ids, the same tasks. The categories come back the same when there were any; an empty category list comes back as the four defaults |
| `App.HandleLogout` | vibeflow-productivity/App.tsx:90-93 | the user becomes absent and the session email is removed; nothing else changes |
| `App.LogoutStaysLoggedOut` | vibeflow-productivity/App.tsx:66-93 | after logout, a sync step does not bring the session back, and the next startup restores no user |
| `App.ToggleTheme` | vibeflow-productivity/App.tsx:95-97 | always yields light or dark, and changes either of them |
| `App.ToggleThemeInvolution` | vibeflow-productivity/App.tsx:95-97 | on light and dark, toggling twice is the identity |
| `App.StartThenSyncAsWritten` | vibeflow-productivity/App.tsx:49-72 | when the session's user cannot be read, the first sync writes empty lists over both stored collections |
| `App.UserReadFailureLosesTasks` | vibeflow-productivity/App.tsx:30-53 | a concrete store with a stored task on which that happens |
| `App.SyncAfterLoad` | vibeflow-productivity/App.tsx:62 | the guarded sync writes nothing after a load that did not finish |
| `App.StartThenSync` | vibeflow-productivity/App.tsx:24-84 | with the guard, startup followed by a sync never loses stored tasks, and keeps stored categories whenever there were any |
| `LoginPage.HandleSubmit` | vibeflow-productivity/pages/LoginPage.tsx:19-60 | any store failure gives the generic database error. Login with an unknown email: "not found", no login. Login with a known email: exactly the stored record, store unchanged. Signup with a known email: "already exists", store unchanged. Otherwise signup stores a user with the form's email, streak 1, 0 points and name defaulting to "Power User", before logging in, and leaves every other stored user as it was. The busy flag always ends false |
| `LoginPage.PasswordIgnored` | vibeflow-productivity/pages/LoginPage.tsx:33-34 | the password does not influence the outcome in either mode |
| `LoginPage.SignUpThenLogIn` | vibeflow-productivity/pages/LoginPage.tsx:25-53 | after a signup, logging in with that email yields the new user, and signing up again is refused |

## Findings

| source | as written | input that shows it | evidently intended | confidence | as-written member | corrected member |
|---|---|---|---|---|---|---|
| vibeflow-productivity/App.tsx:49-53 | a failed read during startup is caught and `isLoading` still becomes false. The sync step then runs with the empty start lists and rewrites the tasks and categories collections with them | a remembered session email whose user record cannot be read (the host rejects requests on the users collection), with a task stored | the loading guard is meant to stop the sync from overwriting stored data with state that was never loaded | medium, not executed | `App.StartThenSyncAsWritten`, `App.UserReadFailureLosesTasks` | `App.StartThenSync` (through `App.SyncAfterLoad`) |

## Left out

- Rendering, routing, styling and charts are left out, and so are the sidebar, the team leaderboard (hard-coded sample data) and the export buttons, which only show an alert. None of them holds logic.
- Clocks and time zones are not modelled. Day keys, the "now" stamp, the noon-of-day stamp of the calendar and the seven week keys of the analytics page are inputs. The round-trip and day-total lemmas assume that a new stamp starts with its day key. The source makes the calendar stamp by converting local noon to UTC, and in extreme time zones that stamp may not start with the key.
- Calendar month navigation is left out because it is date arithmetic.
- Host faults are per collection and persistent. A collection listed in `failing` rejects every request for the life of the `Db` value, and any other collection serves every request. A write rejected right after a successful read of the same collection is therefore not modelled. Sign-up's save-failure branch is unreachable for this reason, although in the application `saveUser` can still reject after a successful lookup. The claim in `App.SyncThenReload` that startup runs to its end rests on the same assumption.
- Asynchrony is not modelled: promises, request callbacks and the overlap of concurrent sync cycles. Every operation is a synchronous step.
- The upgrade step runs in the source only when the database version changes. The model runs it on every open; creating only missing collections makes this equivalent.
- `Db.GetTasks`: does not state the order of the listed records. IndexedDB returns them in key order, and the model leaves the order open. The same holds for `Db.GetCategories` and `Db.AllValues`.
- `localStorage` writes that throw, such as a full quota, are not modelled. Preference writes always succeed.
- The saving indicator and its 500 ms timer are left out, because they are cosmetic. Toggling the `dark` class on the page is left out too.
- Confetti and browser notifications are left out; they are side effects only.
- Random ids, `parseInt` and NaN points are not modelled. Ids and points are parameters, numbers are unbounded integers, and ids are not assumed unique unless a lemma says so.
- Deleting every category does not survive a restart. Startup treats an empty stored category list as a first run and brings back the four defaults; `App.SyncThenReload` states this outcome rather than a reload that finds exactly what was saved.
- Form resets after adding a task or category (clearing the name, closing the dialog) are left out because they are UI state.

=== FILE: analytics.dfy ===
/** The analytics page: points per weekday of the current week and the share of
    points per category. The dates of the current week come from the clock;
    here they are given as the seven day keys Sunday to Saturday. */
module Analytics {
  import opened Types
  import Seqs
  import Ledger

  const WeekdayNames: seq<string> := ["Sun", "Mon", "Tue", "Wed", "Thu", "Fri", "Sat"]

  datatype DayPoints = DayPoints(name: string, points: int)

  /** One bar per weekday: the points earned on that day, each task once. */
  function WeeklyData(ts: seq<Task>, weekKeys: seq<string>): (r: seq<DayPoints>)
    requires |weekKeys| == 7
    ensures |r| == 7
    ensures forall i :: 0 <= i < 7 ==> r[i].name == WeekdayNames[i]
    ensures forall i :: 0 <= i < 7 ==> r[i].points == Ledger.DayTotal(ts, weekKeys[i])
  {
    seq(7, i requires 0 <= i < 7 => DayPoints(WeekdayNames[i], Ledger.DayTotal(ts, weekKeys[i])))
  }

  datatype Slice = Slice(name: string, value: int, color: string)

  /** What a task contributes to its category's share: every recorded completion,
      same-day repeats included, times its points. */
  function CompletionValue(t: Task): int {
    |t.completedDates| * t.points
  }

  function InCategory(catId: string): Task -> bool {
    (t: Task) => t.categoryId == catId
  }

  /** The total shown for one category. */
  function CategoryValue(ts: seq<Task>, catId: string): int {
    Seqs.SumBy(Seqs.Filter(ts, InCategory(catId)), CompletionValue)
  }

  function SliceOf(c: Category, ts: seq<Task>): Slice {
    Slice(c.name, CategoryValue(ts, c.id), c.color)
  }

  /** One slice per category, in category order, before empty ones are dropped. */
  function AllSlices(cs: seq<Category>, ts: seq<Task>): (r: seq<Slice>)
    ensures |r| == |cs|
    ensures forall i :: 0 <= i < |cs| ==> r[i] == SliceOf(cs[i], ts)
  {
    seq(|cs|, i requires 0 <= i < |cs| => SliceOf(cs[i], ts))
  }

  function Positive(e: Slice): bool {
    e.value > 0
  }

  /** The pie slices: one per category with a positive total, in category order. */
  function DistributionData(cs: seq<Category>, ts: seq<Task>): (r: seq<Slice>)
    ensures |r| <= |cs|
    ensures forall e :: e in r ==> e.value > 0
    ensures forall e :: e in r ==> exists c :: c in cs && e == SliceOf(c, ts)
    ensures forall c :: c in cs && CategoryValue(ts, c.id) > 0 ==> SliceOf(c, ts) in r
  {
    var all := AllSlices(cs, ts);
    assert forall c :: c in cs ==> SliceOf(c, ts) in all by {
      forall c | c in cs ensures SliceOf(c, ts) in all {
        var i :| 0 <= i < |cs| && cs[i] == c;
        assert all[i] == SliceOf(c, ts);
      }
    }
    assert forall e :: e in all ==> exists c :: c in cs && e == SliceOf(c, ts) by {
      forall e | e in all ensures exists c :: c in cs && e == SliceOf(c, ts) {
        var i :| 0 <= i < |all| && all[i] == e;
        assert cs[i] in cs;
      }
    }
    Seqs.Filter(all, Positive)
  }

  /** The slices keep category order: the list distributes over concatenation. */
  lemma DistributionKeepsOrder(a: seq<Category>, b: seq<Category>, ts: seq<Task>)
    ensures DistributionData(a + b, ts) == DistributionData(a, ts) + DistributionData(b, ts)
  {
    var sa, sb, sab := AllSlices(a, ts), AllSlices(b, ts), AllSlices(a + b, ts);
    assert sab == sa + sb by {
      forall i | 0 <= i < |sab| ensures sab[i] == (sa + sb)[i] {
        if i < |a| {
          assert (a + b)[i] == a[i];
        } else {
          assert (a + b)[i] == b[i - |a|];
        }
      }
    }
    Seqs.FilterConcat(sa, sb, Positive);
  }

  lemma CompletionValueAppend(t: Task, stamp: string)
    ensures CompletionValue(t.(completedDates := t.completedDates + [stamp])) == CompletionValue(t) + t.points
  {
    var n := |t.completedDates|;
    assert |t.completedDates + [stamp]| == n + 1;
    assert (n + 1) * t.points == n * t.points + t.points;
  }

  /** Unlike the day totals, the category share counts every completion: one more
      stamp on a task, even on a day it was already completed, adds its points
      to its category. */
  lemma ExtraStampRaisesCategoryValue(ts: seq<Task>, j: nat, stamp: string)
    requires j < |ts|
    ensures var t := ts[j];
            CategoryValue(ts[j := t.(completedDates := t.completedDates + [stamp])], t.categoryId) ==
              CategoryValue(ts, t.categoryId) + t.points
  {
    var t := ts[j];
    var t' := t.(completedDates := t.completedDates + [stamp]);
    var keep := InCategory(t.categoryId);
    var f := Seqs.Masked(keep, CompletionValue);
    Seqs.SumByFilter(ts, keep, CompletionValue);
    Seqs.SumByFilter(ts[j := t'], keep, CompletionValue);
    Seqs.SumByUpdate(ts, j, t', f);
    CompletionValueAppend(t, stamp);
    assert keep(t) && keep(t');
    assert f(t') == f(t) + t.points;
  }
}

=== FILE: app.dfy ===
/** The application shell: loading the stored state at startup, mirroring the
    in-memory state into the store after every change, logout and the theme
    switch. The browser's key-value preferences are a map from key to string;
    React state updates are applied in order, synchronously. */
module App {
  import opened Wrappers
  import opened Types
  import opened Db

  /** The browser's string preferences. */
  type Prefs = map<string, string>

  const SessionKey := "vibe_session_email"
  const ThemeKey := "vibe_theme"
  const DefaultTheme := "dark"

  /** The in-memory state. `theme` is a string because the stored preference is
      taken as it is found. */
  datatype AppState = AppState(
    user: Option<User>,
    categories: seq<Category>,
    tasks: seq<Task>,
    theme: string,
    isLoading: bool)

  const StartState := AppState(None, [], [], DefaultTheme, true)

  /** A preference that is present and not the empty string; an empty one counts as unset. */
  function Setting(prefs: Prefs, key: string): Option<string> {
    if key in prefs && prefs[key] != "" then Some(prefs[key]) else None
  }

  /** The user of the remembered session, if any. */
  function RestoreUser(db: Db, prefs: Prefs): (r: Result<Option<User>, DbError>)
    ensures Setting(prefs, SessionKey).None? ==> r == Ok(None)
    ensures r.Err? ==> Setting(prefs, SessionKey).Some? && !Serves(db, Users)
    ensures r.Ok? && r.value.Some? <==>
              && Setting(prefs, SessionKey).Some? && Serves(db, Users)
              && prefs[SessionKey] in db.users.value
    ensures r.Ok? && r.value.Some? ==> r.value.value == db.users.value[prefs[SessionKey]]
  {
    match Setting(prefs, SessionKey)
    case None => Ok(None)
    case Some(email) => GetUser(db, email)
  }

  /** The categories to start with: the stored ones, or the defaults when none are stored. */
  function StartCategories(saved: seq<Category>): seq<Category> {
    if |saved| > 0 then saved else InitialCategories
  }

  /** The theme to start with. */
  function StartTheme(prefs: Prefs): string {
    Setting(prefs, ThemeKey).GetOr(DefaultTheme)
  }

  /** Startup reached the point of reading the categories. */
  ghost predicate ReadsCategories(db0: Db, prefs: Prefs) {
    Init(db0).Ok? && RestoreUser(Init(db0).value, prefs).Ok?
  }

  /** Startup ran to the end without a failure. */
  ghost predicate LoadsAll(db0: Db, prefs: Prefs) {
    ReadsCategories(db0, prefs) && Serves(Init(db0).value, Categories) && Serves(Init(db0).value, Tasks)
  }

  /** Startup: open the store, restore the session's user, load the categories
      (falling back to the defaults), the tasks and the theme. A failure stops
      the sequence where it happens and keeps what was already set; loading
      always ends. `loaded` records whether the sequence ran to its end; the
      application itself does not keep it. */
  method InitApp(db0: Db, prefs: Prefs) returns (s: AppState, db: Db, loaded: bool)
    ensures !s.isLoading
    ensures loaded <==> LoadsAll(db0, prefs)
    ensures Init(db0).Err? ==> db == db0 && s == StartState.(isLoading := false)
    ensures Init(db0).Ok? ==> db == Init(db0).value
    ensures s.user.Some? ==> Init(db0).Ok? && RestoreUser(db, prefs) == Ok(s.user)
    ensures ReadsCategories(db0, prefs) ==> s.user == RestoreUser(db, prefs).value
    ensures ReadsCategories(db0, prefs) && Serves(db, Categories) && db.categories.value == map[] ==>
              s.categories == InitialCategories
    ensures ReadsCategories(db0, prefs) && Serves(db, Categories) && db.categories.value != map[] ==>
              Lists(s.categories, db.categories.value)
    ensures !(ReadsCategories(db0, prefs) && Serves(db, Categories)) ==> s.categories == []
    ensures LoadsAll(db0, prefs) ==> Lists(s.tasks, db.tasks.value) && s.theme == StartTheme(prefs)
    ensures !LoadsAll(db0, prefs) ==> s.tasks == [] && s.theme == DefaultTheme
  {
    s := StartState;
    db := db0;
    loaded := false;
    var open := Init(db0);
    if open.Err? {
      s := s.(isLoading := false);
      return;
    }
    db := open.value;
    var restored := RestoreUser(db, prefs);
    if restored.Err? {
      s := s.(isLoading := false);
      return;
    }
    s := s.(user := restored.value);
    var cats := GetCategories(db);
    if cats.Err? {
      s := s.(isLoading := false);
      return;
    }
    s := s.(categories := StartCategories(cats.value));
    var ts := GetTasks(db);
    if ts.Err? {
      s := s.(isLoading := false);
      return;
    }
    s := s.(tasks := ts.value, theme := StartTheme(prefs), isLoading := false);
    loaded := true;
  }

  /** Saving the current user, if any, and remembering its email as the session. */
  function SaveSession(db: Db, prefs: Prefs, user: Option<User>): Result<(Db, Prefs), DbError> {
    match user
    case None => Ok((db, prefs))
    case Some(u) =>
      match SaveUser(db, u)
      case Err(e) => Err(e)
      case Ok(db') => Ok((db', prefs[SessionKey := u.email]))
  }

  /** What one sync step leaves behind: the store, the preferences and the error
      it logged, if any. The in-memory state is never changed by it. */
  datatype SyncResult = SyncResult(db: Db, prefs: Prefs, logged: Option<DbError>)

  /** Every save of a sync step of `s` goes through. */
  predicate SyncSucceeds(s: AppState, db: Db) {
    (s.user.Some? ==> Serves(db, Users)) && Serves(db, Categories) && Serves(db, Tasks)
  }

  /** One sync step: skipped while loading; otherwise save the user and the
      session, rewrite the categories and the tasks, and store the theme. The
      first failure is logged and ends the step; saves completed before it stay,
      and the rejected save changes nothing. */
  function SyncToDb(s: AppState, db: Db, prefs: Prefs): (r: SyncResult)
    ensures s.isLoading ==> r == SyncResult(db, prefs, None)
    ensures !s.isLoading ==> (r.logged.None? <==> SyncSucceeds(s, db))
    ensures !s.isLoading && r.logged.None? ==>
              && r.db.categories == Some(Snapshot(s.categories, CategoryKey))
              && r.db.tasks == Some(Snapshot(s.tasks, TaskKey))
              && ThemeKey in r.prefs && r.prefs[ThemeKey] == s.theme
    ensures !s.isLoading && r.logged.None? && s.user.Some? ==>
              && SessionKey in r.prefs && r.prefs[SessionKey] == s.user.value.email
              && GetUser(r.db, s.user.value.email) == Ok(s.user)
    ensures s.user.None? ==> r.db.users == db.users && r.prefs - {ThemeKey} == prefs - {ThemeKey}
    ensures s.user.Some? && db.users.Some? ==>
              && r.db.users.Some?
              && forall e :: e != s.user.value.email ==>
                   (e in r.db.users.value <==> e in db.users.value) &&
                   (e in db.users.value ==> r.db.users.value[e] == db.users.value[e])
    ensures !s.isLoading && s.user.Some? && !Serves(db, Users) ==> r == SyncResult(db, prefs, r.logged) && r.logged.Some?
    ensures r.logged.Some? ==> r.db.tasks == db.tasks && (ThemeKey in r.prefs <==> ThemeKey in prefs)
    ensures !s.isLoading && r.logged.Some? && s.user.Some? && Serves(db, Users) ==>
              && GetUser(r.db, s.user.value.email) == Ok(s.user)
              && SessionKey in r.prefs && r.prefs[SessionKey] == s.user.value.email
    ensures !s.isLoading && r.logged.Some? && (s.user.Some? ==> Serves(db, Users)) && Serves(db, Categories) ==>
              r.db.categories == Some(Snapshot(s.categories, CategoryKey))
    ensures r.logged.Some? && !Serves(db, Categories) ==> r.db.categories == db.categories
    ensures r.logged.Some? && ThemeKey in prefs ==> r.prefs[ThemeKey] == prefs[ThemeKey]
    ensures r.db.available == db.available && r.db.failing == db.failing
  {
    if s.isLoading then SyncResult(db, prefs, None)
    else
      match SaveSession(db, prefs, s.user)
      case Err(e) => SyncResult(db, prefs, Some(e))
      case Ok((db1, prefs1)) =>
        match SaveCategories(db1, s.categories)
        case Err(e) => SyncResult(db1, prefs1, Some(e))
        case Ok(db2) =>
          match SaveTasks(db2, s.tasks)
          case Err(e) => SyncResult(db2, prefs1, Some(e))
          case Ok(db3) => SyncResult(db3, prefs1[ThemeKey := s.theme], None)
  }

  /** A failed sync step leaves no permanent drift: whatever the failed step left
      behind, once the host serves the collections again (`failing'`) the next
      step writes the then-current user, categories and tasks. */
  lemma SyncRecovers(s: AppState, s': AppState, db: Db, prefs: Prefs, failing': set<StoreName>)
    requires SyncToDb(s, db, prefs).logged.Some?
    requires !s'.isLoading
    requires SyncSucceeds(s', SyncToDb(s, db, prefs).db.(failing := failing'))
    ensures var first := SyncToDb(s, db, prefs);
            var r := SyncToDb(s', first.db.(failing := failing'), first.prefs);
            && r.logged.None?
            && r.db.categories == Some(Snapshot(s'.categories, CategoryKey))
            && r.db.tasks == Some(Snapshot(s'.tasks, TaskKey))
            && (s'.user.Some? ==> GetUser(r.db, s'.user.value.email) == Ok(s'.user))
  {
  }

  /** The recovery above covers a failed task rewrite. The first step saves the
      user, remembers the session and rewrites the categories; the task
      collection rejects its rewrite and keeps the stale task it held. The next
      step, once the host serves it again, replaces the stale contents with the
      current tasks. */
  lemma TaskRewriteFailureRecovers()
    ensures var u := User("u1", "Ann", "a@b.c", "", 0, 0, "");
            var cat := InitialCategories[0];
            var current := WipeExampleTask.(id := "t2", name := "Run");
            var s := AppState(Some(u), [cat], [current], DefaultTheme, false);
            var db := Db(true, true, Some(map[]), Some(map["t1" := WipeExampleTask]), Some(map[]), {Tasks});
            var first := SyncToDb(s, db, map[]);
            && first.logged == Some(RequestFailed(SaveTasksFailed))
            && GetUser(first.db, u.email) == Ok(Some(u))
            && first.prefs == map[SessionKey := u.email]
            && first.db.categories == Some(map["cat-1" := cat])
            && first.db.tasks == Some(map["t1" := WipeExampleTask])
            && SyncSucceeds(s, first.db.(failing := {}))
            && SyncToDb(s, first.db.(failing := {}), first.prefs).db.tasks == Some(map["t2" := current])
  {
    var cat := InitialCategories[0];
    var current := WipeExampleTask.(id := "t2", name := "Run");
    assert Snapshot([cat], CategoryKey) == map["cat-1" := cat] by {
      assert [cat][..0] == [];
    }
    assert Snapshot([current], TaskKey) == map["t2" := current] by {
      assert [current][..0] == [];
    }
  }

  /** A successful sync step followed by the next startup. Startup runs to its end
      unless it must read a remembered session from a user collection that
      rejects requests. The user and the theme come back (an empty email or theme
      is not remembered), and so do the tasks, each once, when ids are unique.
      The categories come back likewise when there were any; an empty category
      list comes back as the four defaults. */
  method SyncThenReload(s: AppState, db: Db, prefs: Prefs) returns (s2: AppState, loaded: bool)
    requires !s.isLoading && SyncSucceeds(s, db) && db.available
    requires UniqueCategoryIds(s.categories) && UniqueTaskIds(s.tasks)
    ensures !s2.isLoading
    ensures loaded <==> Users !in db.failing || Setting(prefs, SessionKey).None?
    ensures s.user.Some? ==> s2.user == if s.user.value.email != "" then s.user else None
    ensures loaded ==> s2.theme == if s.theme != "" then s.theme else DefaultTheme
    ensures loaded ==> |s2.tasks| == |s.tasks| && forall t :: t in s2.tasks <==> t in s.tasks
    ensures loaded && s.categories != [] ==>
              |s2.categories| == |s.categories| && forall c :: c in s2.categories <==> c in s.categories
    ensures loaded && s.categories == [] ==> s2.categories == InitialCategories
    ensures !loaded ==> s2.categories == [] && s2.tasks == []
  {
    var r := SyncToDb(s, db, prefs);
    assert Init(r.db).Ok?;
    assert s.user.None? ==> Setting(r.prefs, SessionKey) == Setting(prefs, SessionKey) by {
      if s.user.None? {
        assert SessionKey in r.prefs - {ThemeKey} <==> SessionKey in prefs - {ThemeKey};
      }
    }
    var db2;
    s2, db2, loaded := InitApp(r.db, r.prefs);
    if loaded {
      ReplaceAllThenList(s.tasks, TaskKey, s2.tasks);
      if s.categories != [] {
        SnapshotSize(s.categories, CategoryKey);
        ReplaceAllThenList(s.categories, CategoryKey, s2.categories);
      }
    }
  }

  /** Logout forgets the user and the remembered session. */
  function HandleLogout(s: AppState, prefs: Prefs): (r: (AppState, Prefs))
    ensures r.0.user.None? && SessionKey !in r.1
    ensures r.0 == s.(user := r.0.user)
    ensures forall k :: k != SessionKey ==> (k in r.1 <==> k in prefs) && (k in prefs ==> r.1[k] == prefs[k])
  {
    (s.(user := None), prefs - {SessionKey})
  }

  /** After logout, no later sync step brings the session back, so the next
      startup restores no user. */
  lemma LogoutStaysLoggedOut(s: AppState, db: Db, prefs: Prefs)
    ensures var (s', prefs') := HandleLogout(s, prefs);
            var r := SyncToDb(s', db, prefs');
            SessionKey !in r.prefs && RestoreUser(r.db, r.prefs) == Ok(None)
  {
    var (s', prefs') := HandleLogout(s, prefs);
    var r := SyncToDb(s', db, prefs');
    assert r.prefs - {ThemeKey} == prefs' - {ThemeKey};
    assert SessionKey !in r.prefs - {ThemeKey};
  }

  /** The theme switch: light becomes dark, anything else becomes light. */
  function ToggleTheme(theme: string): (r: string)
    ensures r == "light" || r == "dark"
    ensures (theme == "light" || theme == "dark") ==> r != theme
  {
    if theme == "light" then "dark" else "light"
  }

  /** On the two themes the switch is an involution. */
  lemma ToggleThemeInvolution(theme: string)
    requires theme == "light" || theme == "dark"
    ensures ToggleTheme(ToggleTheme(theme)) == theme
  {
  }

  /** Startup opened the store but could not read the session's user, while the
      task and category collections are readable and writable. */
  ghost predicate UserReadFails(db0: Db, prefs: Prefs) {
    && Init(db0).Ok?
    && RestoreUser(Init(db0).value, prefs).Err?
    && Serves(Init(db0).value, Categories) && Serves(Init(db0).value, Tasks)
  }

  /** Startup followed by the first sync step, as the application runs them: the
      sync runs as soon as loading has ended, whether or not loading succeeded.
      When reading the user fails, the empty lists the state started with are
      written over both stored collections. */
  method StartThenSyncAsWritten(db0: Db, prefs: Prefs) returns (s: AppState, r: SyncResult)
    ensures UserReadFails(db0, prefs) ==> r.db.tasks == Some(map[]) && r.db.categories == Some(map[])
  {
    var db, loaded;
    s, db, loaded := InitApp(db0, prefs);
    r := SyncToDb(s, db, prefs);
    if UserReadFails(db0, prefs) {
      assert s.user.None? && s.categories == [] && s.tasks == [];
    }
  }

  const WipeExampleTask := Task("t1", "cat-1", "Read", 50, "Zap", ["2024-05-01T12:00:00.000Z"], None)

  /** A concrete store on which the startup-then-sync sequence loses a stored
      task: a remembered session whose user cannot be read. */
  lemma UserReadFailureLosesTasks()
    ensures var db0 := Db(true, false, Some(map[]), Some(map["t1" := WipeExampleTask]), Some(map[]), {Users});
            UserReadFails(db0, map[SessionKey := "a@b.c"]) && db0.tasks.value != map[]
  {
    var prefs := map[SessionKey := "a@b.c"];
    assert Setting(prefs, SessionKey) == Some("a@b.c");
    assert "t1" in map["t1" := WipeExampleTask];
  }

  /** The sync step guarded by the outcome of loading: skipped while loading and
      after a load that did not run to its end. */
  function SyncAfterLoad(s: AppState, loaded: bool, db: Db, prefs: Prefs): (r: SyncResult)
    ensures !loaded ==> r.db == db && r.prefs == prefs
    ensures loaded ==> r == SyncToDb(s, db, prefs)
  {
    if loaded then SyncToDb(s, db, prefs) else SyncResult(db, prefs, None)
  }

  /** Startup followed by the first sync step, with the sync guarded by the
      outcome of loading. Stored tasks are never lost, and stored categories are
      kept whenever there were any: a successful load writes back exactly what
      it read, a failed one writes nothing. */
  method StartThenSync(db0: Db, prefs: Prefs) returns (s: AppState, r: SyncResult)
    requires WellKeyed(db0)
    ensures db0.tasks.Some? ==> r.db.tasks == db0.tasks
    ensures db0.categories.Some? && db0.categories.value != map[] ==> r.db.categories == db0.categories
  {
    var db, loaded;
    s, db, loaded := InitApp(db0, prefs);
    r := SyncAfterLoad(s, loaded, db, prefs);
    if loaded {
      assert SyncSucceeds(s, db);
      SnapshotOfListing(db.tasks.value, TaskKey, s.tasks);
      if db.categories.value != map[] {
        SnapshotOfListing(db.categories.value, CategoryKey, s.categories);
      }
    }
  }
}

=== FILE: calendar.dfy ===
/** The calendar page: the per-day task list of the selected day. Toggling a task
    on a past day is `Ledger.Toggle` with the selected day's key and a stamp at
    noon of that day. */
module CalendarView {
  import opened Wrappers
  import opened Types
  import Seqs
  import Ledger

  /** A task together with whether it is completed on the selected day. */
  datatype DayTask = DayTask(task: Task, isCompletedOnDay: bool)

  /** The task list shown for the selected day; empty when no day is selected. */
  function SelectedDayTasks(ts: seq<Task>, selected: Option<string>): (r: seq<DayTask>)
    ensures selected.None? ==> r == []
    ensures selected.Some? ==> |r| == |ts|
    ensures selected.Some? ==> forall i :: 0 <= i < |ts| ==>
              r[i].task == ts[i] &&
              (r[i].isCompletedOnDay <==>
                 exists k :: 0 <= k < |ts[i].completedDates| && Ledger.StartsWith(ts[i].completedDates[k], selected.value))
  {
    match selected
    case None => []
    case Some(day) =>
      seq(|ts|, i requires 0 <= i < |ts| => DayTask(ts[i], Ledger.HasStampOn(ts[i].completedDates, day)))
  }

  function FlaggedPoints(e: DayTask): int {
    if e.isCompletedOnDay then e.task.points else 0
  }

  /** The points of the tasks flagged in the day's list add up to the day's total
      shown on the calendar cell. */
  lemma {:induction false} SelectedDayMatchesDayTotal(ts: seq<Task>, day: string)
    ensures Seqs.SumBy(SelectedDayTasks(ts, Some(day)), FlaggedPoints) == Ledger.DayTotal(ts, day)
  {
    if ts != [] {
      var init := ts[..|ts| - 1];
      SelectedDayMatchesDayTotal(init, day);
      var r := SelectedDayTasks(ts, Some(day));
      assert r[..|r| - 1] == SelectedDayTasks(init, Some(day));
    }
  }
}

=== FILE: dashboard.dfy ===
/** The dashboard: today's points, the completion toggle for today, and the
    category tabs with the tasks of the selected category. */
module Dashboard {
  import opened Types
  import Seqs
  import Ledger

  /** The points earned today, each task counted once. */
  method DailyPoints(ts: seq<Task>, today: string) returns (points: int)
    ensures points == Ledger.DayTotal(ts, today)
  {
    points := Ledger.PointsForDay(ts, today);
  }

  /** Mark task `id` done or undone for today; `now` is the current timestamp.
      Un-completing drops exactly today's stamps and keeps the others in order;
      only the stamp lists of the tasks with that id and the user's total change. */
  function HandleTaskToggle(l: Ledger.Ledger, id: string, today: string, now: string): (r: Ledger.Ledger)
    ensures Ledger.FindTask(l.tasks, id).None? ==> r == l
    ensures |r.tasks| == |l.tasks|
    ensures l.user.None? <==> r.user.None?
    ensures l.user.Some? ==> r.user.value == l.user.value.(totalPoints := r.user.value.totalPoints)
    ensures forall i :: 0 <= i < |l.tasks| && l.tasks[i].id != id ==> r.tasks[i] == l.tasks[i]
    ensures forall i :: 0 <= i < |l.tasks| ==>
              r.tasks[i].(completedDates := l.tasks[i].completedDates) == l.tasks[i]
    ensures Ledger.FindTask(l.tasks, id).Some? ==>
              var t := l.tasks[Ledger.FindTask(l.tasks, id).value];
              && (Ledger.CompletedOn(t, today) ==>
                    && (forall i :: 0 <= i < |l.tasks| && l.tasks[i].id == id ==>
                          && r.tasks[i].completedDates == Ledger.RemoveDay(t.completedDates, today)
                          && !Ledger.CompletedOn(r.tasks[i], today))
                    && (l.user.Some? ==> r.user.value.totalPoints == Ledger.ClampAtZero(l.user.value.totalPoints - t.points)))
              && (!Ledger.CompletedOn(t, today) ==>
                    && (forall i :: 0 <= i < |l.tasks| && l.tasks[i].id == id ==>
                          r.tasks[i].completedDates == t.completedDates + [now])
                    && (l.user.Some? ==> r.user.value.totalPoints == l.user.value.totalPoints + t.points))
  {
    Ledger.Toggle(l, id, today, now)
  }

  /** The categories shown as tabs: the enabled ones, in order. */
  function ActiveCategories(cs: seq<Category>): (r: seq<Category>)
    ensures forall c :: c in r <==> c in cs && c.enabled
    ensures |r| <= |cs|
  {
    Seqs.Filter(cs, (c: Category) => c.enabled)
  }

  /** The tasks of the selected category, in order. */
  function FilteredTasks(ts: seq<Task>, selected: string): (r: seq<Task>)
    ensures forall t :: t in r <==> t in ts && t.categoryId == selected
    ensures |r| <= |ts|
  {
    Seqs.Filter(ts, (t: Task) => t.categoryId == selected)
  }

  /** Both lists keep the original order: they distribute over concatenation. */
  lemma ListsKeepOrder(ca: seq<Category>, cb: seq<Category>, ta: seq<Task>, tb: seq<Task>, selected: string)
    ensures ActiveCategories(ca + cb) == ActiveCategories(ca) + ActiveCategories(cb)
    ensures FilteredTasks(ta + tb, selected) == FilteredTasks(ta, selected) + FilteredTasks(tb, selected)
  {
    Seqs.FilterConcat(ca, cb, (c: Category) => c.enabled);
    Seqs.FilterConcat(ta, tb, (t: Task) => t.categoryId == selected);
  }

  /** With unique ids and a current timestamp that falls on today, completing a
      task raises today's points by its points and un-completing lowers them by
      the same amount. */
  lemma ToggleMovesDailyPoints(l: Ledger.Ledger, id: string, today: string, now: string)
    requires UniqueTaskIds(l.tasks)
    requires Ledger.FindTask(l.tasks, id).Some?
    requires Ledger.StartsWith(now, today)
    ensures var t := l.tasks[Ledger.FindTask(l.tasks, id).value];
            Ledger.DayTotal(HandleTaskToggle(l, id, today, now).tasks, today) ==
              if Ledger.CompletedOn(t, today) then Ledger.DayTotal(l.tasks, today) - t.points
              else Ledger.DayTotal(l.tasks, today) + t.points
  {
    Ledger.ToggleMovesDayTotal(l, id, today, now);
  }
}

=== FILE: db.dfy ===
/** The record store: three keyed collections held by the host's database
    (users keyed by email, tasks and categories keyed by id), reached through one
    connection that must be opened first. Asynchrony is dropped: every request
    either resolves (`Ok`) or rejects (`Err`), and a rejected request leaves the
    store as it was. */
module Db {
  import opened Wrappers
  import opened Types
  import Seqs

  datatype StoreName = Users | Tasks | Categories

  datatype DbError =
    | OpenFailed              // the host refused to open the database
    | NotInitialized          // `getStore` before a connection exists
    | NoConnection            // a collection save dereferences the missing connection
    | NoSuchStore(name: StoreName)
    | RequestFailed(message: string)

  const SaveUserFailed := "Failed to save user"
  const GetUserFailed := "Failed to get user"
  const SaveTasksFailed := "Failed to save tasks"
  const GetTasksFailed := "Failed to get tasks"
  const SaveCategoriesFailed := "Failed to save categories"
  const GetCategoriesFailed := "Failed to get categories"

  /** The database as the application sees it. `connected` is the handle the
      service keeps once `init` succeeded; a collection that has not been created
      is `None`. `available` and `failing` describe the host: whether it lets the
      database open at all, and which collections reject every request. */
  datatype Db = Db(
    available: bool,
    connected: bool,
    users: Option<map<string, User>>,
    tasks: Option<map<string, Task>>,
    categories: Option<map<string, Category>>,
    failing: set<StoreName>)

  predicate HasStore(db: Db, name: StoreName) {
    match name
    case Users => db.users.Some?
    case Tasks => db.tasks.Some?
    case Categories => db.categories.Some?
  }

  /** Every request against `name` goes through. */
  predicate Serves(db: Db, name: StoreName) {
    db.connected && HasStore(db, name) && name !in db.failing
  }

  /** The upgrade step: create each collection only if it is missing. */
  function Upgrade(db: Db): (r: Db)
    ensures HasStore(r, Users) && HasStore(r, Tasks) && HasStore(r, Categories)
    ensures db.users.Some? ==> r.users == db.users
    ensures db.tasks.Some? ==> r.tasks == db.tasks
    ensures db.categories.Some? ==> r.categories == db.categories
    ensures db.users.None? ==> r.users == Some(map[])
    ensures db.tasks.None? ==> r.tasks == Some(map[])
    ensures db.categories.None? ==> r.categories == Some(map[])
    ensures r.available == db.available && r.connected == db.connected && r.failing == db.failing
  {
    db.(users := Some(db.users.GetOr(map[])),
        tasks := Some(db.tasks.GetOr(map[])),
        categories := Some(db.categories.GetOr(map[])))
  }

  /** Opening the database: fails when the host refuses, otherwise upgrades the
      schema and keeps the connection. */
  function Init(db: Db): (r: Result<Db, DbError>)
    ensures !db.available <==> r == Err(OpenFailed)
    ensures r.Ok? ==> r.value.connected
    ensures r.Ok? ==> HasStore(r.value, Users) && HasStore(r.value, Tasks) && HasStore(r.value, Categories)
    ensures r.Ok? ==> forall n :: n !in db.failing ==> Serves(r.value, n)
    ensures r.Ok? && db.users.Some? ==> r.value.users == db.users
    ensures r.Ok? && db.tasks.Some? ==> r.value.tasks == db.tasks
    ensures r.Ok? && db.categories.Some? ==> r.value.categories == db.categories
  {
    if !db.available then Err(OpenFailed)
    else Ok(Upgrade(db).(connected := true))
  }

  /** Running the upgrade twice is the same as running it once. */
  lemma UpgradeIdempotent(db: Db)
    ensures Upgrade(Upgrade(db)) == Upgrade(db)
  {
  }

  /** Opening an already opened database changes nothing. */
  lemma InitIdempotent(db: Db)
    requires Init(db).Ok?
    ensures Init(Init(db).value) == Init(db)
  {
  }

  /** Access to one collection through the connection. */
  function GetStore(db: Db, name: StoreName): (r: Result<Unit, DbError>)
    ensures !db.connected ==> r == Err(NotInitialized)
    ensures r.Ok? <==> db.connected && HasStore(db, name)
    ensures db.connected && !HasStore(db, name) ==> r == Err(NoSuchStore(name))
  {
    if !db.connected then Err(NotInitialized)
    else if !HasStore(db, name) then Err(NoSuchStore(name))
    else Ok(Unit)
  }

  /** Store `u` under its email, replacing any previous record with that email. */
  function SaveUser(db: Db, u: User): (r: Result<Db, DbError>)
    ensures r.Ok? <==> Serves(db, Users)
    ensures !db.connected ==> r == Err(NotInitialized)
    ensures db.connected && HasStore(db, Users) && Users in db.failing ==> r == Err(RequestFailed(SaveUserFailed))
    ensures r.Ok? ==> r.value.users.Some? && u.email in r.value.users.value && r.value.users.value[u.email] == u
    ensures r.Ok? ==> forall e :: e != u.email ==>
              (e in r.value.users.value <==> e in db.users.value) &&
              (e in db.users.value ==> r.value.users.value[e] == db.users.value[e])
    ensures r.Ok? ==> r.value.tasks == db.tasks && r.value.categories == db.categories
    ensures r.Ok? ==> r.value.connected && r.value.available == db.available && r.value.failing == db.failing
  {
    match GetStore(db, Users)
    case Err(e) => Err(e)
    case Ok(_) =>
      if Users in db.failing then Err(RequestFailed(SaveUserFailed))
      else Ok(db.(users := Some(db.users.value[u.email := u])))
  }

  /** The user stored under `email`, or `None` when there is none. */
  function GetUser(db: Db, email: string): (r: Result<Option<User>, DbError>)
    ensures r.Ok? <==> Serves(db, Users)
    ensures !db.connected ==> r == Err(NotInitialized)
    ensures r.Ok? ==> (r.value.None? <==> email !in db.users.value)
    ensures r.Ok? && r.value.Some? ==> r.value.value == db.users.value[email]
  {
    match GetStore(db, Users)
    case Err(e) => Err(e)
    case Ok(_) =>
      if Users in db.failing then Err(RequestFailed(GetUserFailed))
      else if email in db.users.value then Ok(Some(db.users.value[email]))
      else Ok(None)
  }

  /** Saving then reading back a user by its email gives exactly the saved record;
      other emails read as before. */
  lemma SaveThenGetUser(db: Db, u: User, email: string)
    requires SaveUser(db, u).Ok?
    ensures email == u.email ==> GetUser(SaveUser(db, u).value, email) == Ok(Some(u))
    ensures email != u.email ==> GetUser(SaveUser(db, u).value, email) == GetUser(db, email)
  {
  }

  /** The collection written by putting `vs` one after the other into an emptied
      collection keyed by `key`. */
  function Snapshot<V>(vs: seq<V>, key: V -> string): map<string, V>
  {
    if vs == [] then map[]
    else Snapshot(vs[..|vs| - 1], key)[key(vs[|vs| - 1]) := vs[|vs| - 1]]
  }

  /** The keys of a rewritten collection are exactly the keys of the records written. */
  lemma {:induction false} SnapshotKeys<V>(vs: seq<V>, key: V -> string, k: string)
    ensures k in Snapshot(vs, key) <==> exists i :: 0 <= i < |vs| && key(vs[i]) == k
  {
    if vs != [] {
      var init := vs[..|vs| - 1];
      SnapshotKeys(init, key, k);
      assert forall i :: 0 <= i < |init| ==> init[i] == vs[i];
    }
  }

  /** Each record of a rewritten collection sits under its own key and was one
      of the records written. */
  lemma {:induction false} SnapshotValues<V>(vs: seq<V>, key: V -> string, k: string)
    requires k in Snapshot(vs, key)
    ensures key(Snapshot(vs, key)[k]) == k
    ensures exists i :: 0 <= i < |vs| && vs[i] == Snapshot(vs, key)[k]
  {
    var last := vs[|vs| - 1];
    if key(last) != k {
      var init := vs[..|vs| - 1];
      SnapshotValues(init, key, k);
      var i :| 0 <= i < |init| && init[i] == Snapshot(init, key)[k];
      assert vs[i] == init[i];
    }
  }

  /** When several records share a key, the one written last wins. */
  lemma {:induction false} SnapshotLastWins<V>(vs: seq<V>, key: V -> string, i: nat)
    requires i < |vs|
    requires forall j :: i < j < |vs| ==> key(vs[j]) != key(vs[i])
    ensures key(vs[i]) in Snapshot(vs, key)
    ensures Snapshot(vs, key)[key(vs[i])] == vs[i]
  {
    if i < |vs| - 1 {
      var init := vs[..|vs| - 1];
      assert init[i] == vs[i];
      SnapshotLastWins(init, key, i);
    }
  }

  /** Clear the task collection and write `ts`, as one transaction. */
  function SaveTasks(db: Db, ts: seq<Task>): (r: Result<Db, DbError>)
    ensures r.Ok? <==> Serves(db, Tasks)
    ensures !db.connected ==> r == Err(NoConnection)
    ensures r.Ok? ==> r.value.tasks == Some(Snapshot(ts, TaskKey))
    ensures r.Ok? ==> r.value.users == db.users && r.value.categories == db.categories
    ensures r.Ok? ==> r.value.connected && r.value.available == db.available && r.value.failing == db.failing
  {
    if !db.connected then Err(NoConnection)
    else if db.tasks.None? then Err(NoSuchStore(Tasks))
    else if Tasks in db.failing then Err(RequestFailed(SaveTasksFailed))
    else Ok(db.(tasks := Some(Snapshot(ts, TaskKey))))
  }

  /** Clear the category collection and write `cs`, as one transaction. */
  function SaveCategories(db: Db, cs: seq<Category>): (r: Result<Db, DbError>)
    ensures r.Ok? <==> Serves(db, Categories)
    ensures !db.connected ==> r == Err(NoConnection)
    ensures r.Ok? ==> r.value.categories == Some(Snapshot(cs, CategoryKey))
    ensures r.Ok? ==> r.value.users == db.users && r.value.tasks == db.tasks
    ensures r.Ok? ==> r.value.connected && r.value.available == db.available && r.value.failing == db.failing
  {
    if !db.connected then Err(NoConnection)
    else if db.categories.None? then Err(NoSuchStore(Categories))
    else if Categories in db.failing then Err(RequestFailed(SaveCategoriesFailed))
    else Ok(db.(categories := Some(Snapshot(cs, CategoryKey))))
  }

  /** `ks` holds every key of `m` exactly once, and `s` the records stored under
      those keys, position by position. */
  ghost predicate ListedBy<V>(s: seq<V>, m: map<string, V>, ks: seq<string>) {
    && |ks| == |s| == |m|
    && (forall i :: 0 <= i < |ks| ==> ks[i] in m && s[i] == m[ks[i]])
    && (forall i, j :: 0 <= i < j < |ks| ==> ks[i] != ks[j])
    && (forall k :: k in m ==> k in ks)
  }

  /** `s` lists the records of `m`, one entry per key, in some order. */
  ghost predicate Lists<V>(s: seq<V>, m: map<string, V>) {
    exists ks: seq<string> :: ListedBy(s, m, ks)
  }

  /** A listing has one entry per stored record, each of them a stored record,
      and every stored record appears in it. */
  lemma ListsMembers<V>(s: seq<V>, m: map<string, V>)
    requires Lists(s, m)
    ensures |s| == |m|
    ensures forall i :: 0 <= i < |s| ==> s[i] in m.Values
    ensures forall k :: k in m ==> m[k] in s
  {
    var ks :| ListedBy(s, m, ks);
    forall i | 0 <= i < |s| ensures s[i] in m.Values {
      assert ks[i] in m;
    }
    forall k | k in m ensures m[k] in s {
      var i :| 0 <= i < |ks| && ks[i] == k;
    }
  }

  /** A listing counts records per key, not per value: two keys give two
      entries at different positions, even when they hold equal records. */
  lemma ListsCountsPerKey<V>(s: seq<V>, m: map<string, V>, k1: string, k2: string)
    ensures Lists(s, m) && k1 in m && k2 in m && k1 != k2 ==>
              exists i, j :: 0 <= i < |s| && 0 <= j < |s| && i != j && s[i] == m[k1] && s[j] == m[k2]
  {
    if Lists(s, m) && k1 in m && k2 in m && k1 != k2 {
      var ks :| ListedBy(s, m, ks);
      var i :| 0 <= i < |ks| && ks[i] == k1;
      var j :| 0 <= j < |ks| && ks[j] == k2;
      assert s[i] == m[k1] && s[j] == m[k2];
    }
  }

  /** Every record of a collection, in an order the model leaves open. */
  method AllValues<V>(m: map<string, V>) returns (s: seq<V>)
    ensures Lists(s, m)
    ensures |s| == |m|
  {
    s := [];
    ghost var ks: seq<string> := [];
    var rest := m.Keys;
    while rest != {}
      invariant rest <= m.Keys
      invariant |ks| == |s|
      invariant |s| + |rest| == |m|
      invariant forall i :: 0 <= i < |ks| ==> ks[i] in m && ks[i] !in rest && s[i] == m[ks[i]]
      invariant forall i, j :: 0 <= i < j < |ks| ==> ks[i] != ks[j]
      invariant forall k :: k in m.Keys - rest ==> k in ks
      decreases |rest|
    {
      var k :| k in rest;
      s := s + [m[k]];
      ks := ks + [k];
      rest := rest - {k};
    }
    assert ListedBy(s, m, ks);
  }

  method GetTasks(db: Db) returns (r: Result<seq<Task>, DbError>)
    ensures r.Ok? <==> Serves(db, Tasks)
    ensures !db.connected ==> r == Err(NotInitialized)
    ensures r.Ok? ==> Lists(r.value, db.tasks.value)
    ensures r.Ok? && db.tasks.value == map[] ==> r.value == []
  {
    var g := GetStore(db, Tasks);
    if g.Err? {
      return Err(g.error);
    }
    if Tasks in db.failing {
      return Err(RequestFailed(GetTasksFailed));
    }
    var all := AllValues(db.tasks.value);
    return Ok(all);
  }

  method GetCategories(db: Db) returns (r: Result<seq<Category>, DbError>)
    ensures r.Ok? <==> Serves(db, Categories)
    ensures !db.connected ==> r == Err(NotInitialized)
    ensures r.Ok? ==> Lists(r.value, db.categories.value)
    ensures r.Ok? && db.categories.value == map[] ==> r.value == []
  {
    var g := GetStore(db, Categories);
    if g.Err? {
      return Err(g.error);
    }
    if Categories in db.failing {
      return Err(RequestFailed(GetCategoriesFailed));
    }
    var all := AllValues(db.categories.value);
    return Ok(all);
  }

  /** With distinct keys, the rewritten collection holds as many records as
      were written. */
  lemma {:induction false} SnapshotSize<V>(vs: seq<V>, key: V -> string)
    requires Seqs.DistinctKeys(vs, key)
    ensures |Snapshot(vs, key)| == |vs|
  {
    if vs != [] {
      var init := vs[..|vs| - 1];
      assert Seqs.DistinctKeys(init, key) by {
        forall i, j | 0 <= i < j < |init| ensures key(init[i]) != key(init[j]) {
          assert init[i] == vs[i] && init[j] == vs[j];
        }
      }
      SnapshotSize(init, key);
      var last := vs[|vs| - 1];
      assert forall i :: 0 <= i < |init| ==> key(init[i]) != key(last) by {
        forall i | 0 <= i < |init| ensures key(init[i]) != key(last) {
          assert init[i] == vs[i];
        }
      }
      SnapshotKeys(init, key, key(last));
    }
  }

  /** With distinct keys, clearing and rewriting with `vs` and then listing the
      collection gives back exactly the records of `vs`: none lost, none left over
      from before, none repeated. */
  lemma ReplaceAllThenList<V>(vs: seq<V>, key: V -> string, s: seq<V>)
    requires Seqs.DistinctKeys(vs, key)
    requires Lists(s, Snapshot(vs, key))
    ensures |s| == |vs|
    ensures forall v :: v in s <==> v in vs
  {
    var m := Snapshot(vs, key);
    ListsMembers(s, m);
    SnapshotSize(vs, key);
    forall v | v in vs ensures v in s {
      var i :| 0 <= i < |vs| && vs[i] == v;
      SnapshotLastWins(vs, key, i);
    }
    forall v | v in s ensures v in vs {
      var k :| k in m && m[k] == v;
      SnapshotValues(vs, key, k);
    }
  }

  /** Every record of `m` sits under its own key, as a collection with a key path keeps it. */
  predicate KeyedBy<V>(m: map<string, V>, key: V -> string) {
    forall k :: k in m ==> key(m[k]) == k
  }

  /** Rewriting a collection with a listing of its own records gives back the
      same collection. */
  lemma SnapshotOfListing<V>(m: map<string, V>, key: V -> string, s: seq<V>)
    requires KeyedBy(m, key)
    requires Lists(s, m)
    ensures Snapshot(s, key) == m
  {
    var n := Snapshot(s, key);
    ListsMembers(s, m);
    forall k ensures k in n <==> k in m {
      SnapshotKeys(s, key, k);
      if k in m {
        var i :| 0 <= i < |s| && s[i] == m[k];
      }
    }
    forall k | k in n ensures n[k] == m[k] {
      SnapshotValues(s, key, k);
      var i :| 0 <= i < |s| && s[i] == n[k];
      var k' :| k' in m && m[k'] == s[i];
    }
  }

  function UserKey(u: User): string { u.email }

  /** The store keeps every record under its key: users under their email, tasks
      and categories under their id. */
  ghost predicate WellKeyed(db: Db) {
    && (db.users.Some? ==> KeyedBy(db.users.value, UserKey))
    && (db.tasks.Some? ==> KeyedBy(db.tasks.value, TaskKey))
    && (db.categories.Some? ==> KeyedBy(db.categories.value, CategoryKey))
  }

  /** Opening and every save keep each record under its key. */
  lemma WritesKeepKeys(db: Db, u: User, ts: seq<Task>, cs: seq<Category>)
    requires WellKeyed(db)
    ensures Init(db).Ok? ==> WellKeyed(Init(db).value)
    ensures SaveUser(db, u).Ok? ==> WellKeyed(SaveUser(db, u).value)
    ensures SaveTasks(db, ts).Ok? ==> WellKeyed(SaveTasks(db, ts).value)
    ensures SaveCategories(db, cs).Ok? ==> WellKeyed(SaveCategories(db, cs).value)
  {
    forall k | k in Snapshot(ts, TaskKey) ensures TaskKey(Snapshot(ts, TaskKey)[k]) == k {
      SnapshotValues(ts, TaskKey, k);
    }
    forall k | k in Snapshot(cs, CategoryKey) ensures CategoryKey(Snapshot(cs, CategoryKey)[k]) == k {
      SnapshotValues(cs, CategoryKey, k);
    }
  }
}

=== FILE: ledger.dfy ===
/** The day-bucketed completion ledger shared by the calendar and the dashboard.
    A day key is a `yyyy-MM-dd` string and a stamp an ISO-8601 timestamp; a task
    counts as completed on a day when one of its stamps starts with the day key.
    Computing keys and stamps from clocks is left to the caller. */
module Ledger {
  import opened Wrappers
  import opened Types
  import Seqs

  /** `p` is a prefix of `s`. */
  predicate StartsWith(s: string, p: string) {
    |p| <= |s| && s[..|p|] == p
  }

  /** Some stamp of `stamps` falls on `day`. */
  function HasStampOn(stamps: seq<string>, day: string): (r: bool)
    ensures r <==> exists i :: 0 <= i < |stamps| && StartsWith(stamps[i], day)
  {
    if stamps == [] then false
    else StartsWith(stamps[0], day) || HasStampOn(stamps[1..], day)
  }

  predicate CompletedOn(t: Task, day: string) {
    HasStampOn(t.completedDates, day)
  }

  /** The stamps not on `day`, in their original order. */
  function RemoveDay(stamps: seq<string>, day: string): (r: seq<string>)
    ensures forall s :: s in r <==> s in stamps && !StartsWith(s, day)
    ensures !HasStampOn(r, day)
  {
    Seqs.Filter(stamps, (s: string) => !StartsWith(s, day))
  }

  /** Dropping a day's stamps keeps the other stamps in their order: it
      distributes over concatenation, and it leaves a list with no stamp on
      that day as it is. */
  lemma RemoveDayKeepsOrder(a: seq<string>, b: seq<string>, day: string)
    ensures RemoveDay(a + b, day) == RemoveDay(a, day) + RemoveDay(b, day)
    ensures !HasStampOn(a, day) ==> RemoveDay(a, day) == a
  {
    Seqs.FilterConcat(a, b, (s: string) => !StartsWith(s, day));
    if !HasStampOn(a, day) {
      forall x | x in a ensures !StartsWith(x, day) {
        var i :| 0 <= i < |a| && a[i] == x;
      }
      Seqs.FilterKeepsAll(a, (s: string) => !StartsWith(s, day));
    }
  }

  /** What one task adds to a day's total: its points when it is completed on
      that day, however many stamps it has there, otherwise nothing. */
  function DayShare(day: string): Task -> int {
    (t: Task) => if CompletedOn(t, day) then t.points else 0
  }

  /** The points earned on `day`: each task completed that day counts once. */
  function DayTotal(ts: seq<Task>, day: string): int {
    Seqs.SumBy(ts, DayShare(day))
  }

  /** The day's points, accumulated over the task list from left to right. */
  method PointsForDay(ts: seq<Task>, day: string) returns (total: int)
    ensures total == DayTotal(ts, day)
  {
    total := 0;
    var i := 0;
    while i < |ts|
      invariant 0 <= i <= |ts|
      invariant total == Seqs.SumBy(ts[..i], DayShare(day))
    {
      assert ts[..i + 1][..i] == ts[..i];
      total := total + (if HasStampOn(ts[i].completedDates, day) then ts[i].points else 0);
      i := i + 1;
    }
    assert ts[..|ts|] == ts;
  }

  /** The index of the first task with id `id`. */
  function FindTask(ts: seq<Task>, id: string): (r: Option<nat>)
    ensures r.None? <==> forall i :: 0 <= i < |ts| ==> ts[i].id != id
    ensures r.Some? ==> r.value < |ts| && ts[r.value].id == id
    ensures r.Some? ==> forall i :: 0 <= i < r.value ==> ts[i].id != id
  {
    if ts == [] then None
    else if ts[0].id == id then Some(0)
    else match FindTask(ts[1..], id)
      case None => None
      case Some(j) => Some(j + 1)
  }

  /** Every task with id `id` gets `stamps` as its completion list. */
  function SetStamps(ts: seq<Task>, id: string, stamps: seq<string>): (r: seq<Task>)
    ensures |r| == |ts|
    ensures forall i :: 0 <= i < |ts| ==>
              r[i] == if ts[i].id == id then ts[i].(completedDates := stamps) else ts[i]
  {
    seq(|ts|, i requires 0 <= i < |ts| => if ts[i].id == id then ts[i].(completedDates := stamps) else ts[i])
  }

  /** `x`, or zero when `x` is negative. */
  function ClampAtZero(x: int): int {
    if x < 0 then 0 else x
  }

  datatype Ledger = Ledger(tasks: seq<Task>, user: Option<User>)

  /** Mark task `id` done or undone on `day`. When the first task with that id has
      a stamp on `day`, all of that day's stamps are dropped and its points are
      taken back from the user (never below zero); otherwise `stamp` is appended
      and the points are added. Every task with that id receives the new stamp
      list; a missing user stays missing. */
  function Toggle(l: Ledger, id: string, day: string, stamp: string): (r: Ledger)
    ensures FindTask(l.tasks, id).None? ==> r == l
    ensures |r.tasks| == |l.tasks|
    ensures forall i :: 0 <= i < |l.tasks| && l.tasks[i].id != id ==> r.tasks[i] == l.tasks[i]
    ensures forall i :: 0 <= i < |l.tasks| ==>
              r.tasks[i].(completedDates := l.tasks[i].completedDates) == l.tasks[i]
    ensures l.user.None? <==> r.user.None?
    ensures FindTask(l.tasks, id).Some? ==>
              var t := l.tasks[FindTask(l.tasks, id).value];
              && (forall i :: 0 <= i < |l.tasks| && l.tasks[i].id == id ==>
                    if CompletedOn(t, day)
                    then r.tasks[i].completedDates == RemoveDay(t.completedDates, day)
                    else r.tasks[i].completedDates == t.completedDates + [stamp])
              && (l.user.Some? ==> r.user.value == l.user.value.(totalPoints := r.user.value.totalPoints))
              && (l.user.Some? && CompletedOn(t, day) ==>
                    r.user.value.totalPoints == ClampAtZero(l.user.value.totalPoints - t.points))
              && (l.user.Some? && !CompletedOn(t, day) ==>
                    r.user.value.totalPoints == l.user.value.totalPoints + t.points)
  {
    match FindTask(l.tasks, id)
    case None => l
    case Some(j) =>
      var t := l.tasks[j];
      Ledger(SetStamps(l.tasks, id, NextStamps(t, day, stamp)), Credit(l.user, t, day))
  }

  /** The stamp list a toggle gives the task `t`. */
  function NextStamps(t: Task, day: string, stamp: string): seq<string> {
    if HasStampOn(t.completedDates, day) then RemoveDay(t.completedDates, day)
    else t.completedDates + [stamp]
  }

  /** The user after toggling `t` on `day`. */
  function Credit(user: Option<User>, t: Task, day: string): Option<User> {
    match user
    case None => None
    case Some(u) =>
      Some(u.(totalPoints :=
        if HasStampOn(t.completedDates, day) then ClampAtZero(u.totalPoints - t.points)
        else u.totalPoints + t.points))
  }

  /** With unique ids, a toggle changes exactly one entry of the task list. */
  lemma ToggleUpdatesOne(l: Ledger, id: string, day: string, stamp: string)
    requires UniqueTaskIds(l.tasks)
    requires FindTask(l.tasks, id).Some?
    ensures var j := FindTask(l.tasks, id).value;
            var t := l.tasks[j];
            Toggle(l, id, day, stamp) ==
              Ledger(l.tasks[j := t.(completedDates := NextStamps(t, day, stamp))], Credit(l.user, t, day))
  {
    var j := FindTask(l.tasks, id).value;
    assert forall i :: 0 <= i < |l.tasks| && i != j ==> l.tasks[i].id != id;
  }

  /** Changing a task without changing its id does not move the first match. */
  lemma FindAfterUpdate(ts: seq<Task>, id: string, x: Task)
    requires FindTask(ts, id).Some?
    requires x.id == id
    ensures FindTask(ts[FindTask(ts, id).value := x], id) == FindTask(ts, id)
  {
    var j := FindTask(ts, id).value;
    var ts' := ts[j := x];
    assert ts'[j].id == id;
    var r := FindTask(ts', id);
    assert r.Some?;
    assert !(r.value < j);
  }

  /** Dropping the day's stamps undoes appending a stamp on a day that had none. */
  lemma RemoveDayUndoesAppend(stamps: seq<string>, day: string, stamp: string)
    requires !HasStampOn(stamps, day)
    requires StartsWith(stamp, day)
    ensures RemoveDay(stamps + [stamp], day) == stamps
  {
    Seqs.FilterConcat(stamps, [stamp], (x: string) => !StartsWith(x, day));
    Seqs.FilterKeepsAll(stamps, (x: string) => !StartsWith(x, day));
    assert [stamp][1..] == [];
  }

  /** Completing a task on `day` with a stamp on that day raises the day's total
      by the task's points; un-completing it lowers the total by the same amount. */
  lemma {:induction false} ToggleMovesDayTotal(l: Ledger, id: string, day: string, stamp: string)
    requires UniqueTaskIds(l.tasks)
    requires FindTask(l.tasks, id).Some?
    requires StartsWith(stamp, day)
    ensures var t := l.tasks[FindTask(l.tasks, id).value];
            DayTotal(Toggle(l, id, day, stamp).tasks, day) ==
              if CompletedOn(t, day) then DayTotal(l.tasks, day) - t.points
              else DayTotal(l.tasks, day) + t.points
  {
    var j := FindTask(l.tasks, id).value;
    var t := l.tasks[j];
    var t' := t.(completedDates := NextStamps(t, day, stamp));
    ToggleUpdatesOne(l, id, day, stamp);
    Seqs.SumByUpdate(l.tasks, j, t', DayShare(day));
    NextStampsShare(t, day, stamp);
  }

  /** What the toggled task adds to the day's total afterwards. */
  lemma NextStampsShare(t: Task, day: string, stamp: string)
    requires StartsWith(stamp, day)
    ensures DayShare(day)(t.(completedDates := NextStamps(t, day, stamp))) ==
              if CompletedOn(t, day) then 0 else t.points
  {
    var t' := t.(completedDates := NextStamps(t, day, stamp));
    if CompletedOn(t, day) {
      assert !CompletedOn(t', day);
    } else {
      var s := t.completedDates + [stamp];
      assert s[|s| - 1] == stamp;
      assert CompletedOn(t', day);
    }
  }

  /** A stamp on `day` appended to a list makes the list fall on `day`. */
  lemma AppendedStampOn(stamps: seq<string>, day: string, stamp: string)
    requires StartsWith(stamp, day)
    ensures HasStampOn(stamps + [stamp], day)
  {
    assert (stamps + [stamp])[|stamps|] == stamp;
  }

  /** Toggling back, on the same day, a task that a toggle has just completed
      drops the appended stamp again: the task list is restored. */
  lemma {:induction false} SecondToggleRestores(ts: seq<Task>, j: nat, user: Option<User>, day: string, stamp: string)
    requires UniqueTaskIds(ts)
    requires j < |ts|
    requires !CompletedOn(ts[j], day)
    requires StartsWith(stamp, day)
    ensures var t := ts[j];
            var once := Ledger(ts[j := t.(completedDates := t.completedDates + [stamp])], user);
            Toggle(once, t.id, day, stamp).tasks == ts
  {
    var t := ts[j];
    var t1 := t.(completedDates := t.completedDates + [stamp]);
    var once := Ledger(ts[j := t1], user);
    assert FindTask(ts, t.id) == Some(j) by {
      var r := FindTask(ts, t.id);
      assert r.Some?;
      assert ts[r.value].id == ts[j].id;
    }
    FindAfterUpdate(ts, t.id, t1);
    assert UniqueTaskIds(once.tasks) by {
      assert forall i :: 0 <= i < |ts| ==> once.tasks[i].id == ts[i].id;
    }
    AppendedStampOn(t.completedDates, day, stamp);
    ToggleUpdatesOne(once, t.id, day, stamp);
    RemoveDayUndoesAppend(t.completedDates, day, stamp);
    assert NextStamps(t1, day, stamp) == t.completedDates;
    assert ts[j := t1][j := t] == ts;
  }

  /** Crediting a task's points and then taking them back restores the user
      when neither the total nor the points are negative. */
  lemma CreditRoundTrip(user: Option<User>, t: Task, day: string, stamp: string)
    requires !CompletedOn(t, day)
    requires StartsWith(stamp, day)
    requires user.Some? ==> user.value.totalPoints >= 0
    requires t.points >= 0
    ensures Credit(Credit(user, t, day), t.(completedDates := t.completedDates + [stamp]), day) == user
  {
    AppendedStampOn(t.completedDates, day, stamp);
  }

  /** Completing then un-completing a task on the same day, with a stamp that
      falls on that day, restores the task list, and restores the user's total
      when neither the total nor the task's points are negative. */
  lemma {:induction false} ToggleRoundTrip(l: Ledger, id: string, day: string, stamp: string)
    requires UniqueTaskIds(l.tasks)
    requires FindTask(l.tasks, id).Some?
    requires !CompletedOn(l.tasks[FindTask(l.tasks, id).value], day)
    requires StartsWith(stamp, day)
    requires l.user.Some? ==> l.user.value.totalPoints >= 0
    requires l.tasks[FindTask(l.tasks, id).value].points >= 0
    ensures Toggle(Toggle(l, id, day, stamp), id, day, stamp) == l
  {
    var j := FindTask(l.tasks, id).value;
    var t := l.tasks[j];
    var t1 := t.(completedDates := t.completedDates + [stamp]);
    ToggleUpdatesOne(l, id, day, stamp);
    var once := Ledger(l.tasks[j := t1], Credit(l.user, t, day));
    assert Toggle(l, id, day, stamp) == once;
    SecondToggleRestores(l.tasks, j, Credit(l.user, t, day), day, stamp);
    FindAfterUpdate(l.tasks, id, t1);
    AppendedStampOn(t.completedDates, day, stamp);
    assert Toggle(once, id, day, stamp).user == Credit(once.user, t1, day);
    CreditRoundTrip(l.user, t, day, stamp);
  }

  /** Extra stamps on a day a task is already completed do not change that day's
      total: each task counts at most once per day. */
  lemma RepeatStampKeepsDayTotal(ts: seq<Task>, j: nat, day: string, stamp: string)
    requires j < |ts|
    requires CompletedOn(ts[j], day)
    ensures DayTotal(ts[j := ts[j].(completedDates := ts[j].completedDates + [stamp])], day) == DayTotal(ts, day)
  {
    var t := ts[j];
    var t' := t.(completedDates := t.completedDates + [stamp]);
    Seqs.SumByUpdate(ts, j, t', DayShare(day));
    var i :| 0 <= i < |t.completedDates| && StartsWith(t.completedDates[i], day);
    assert t'.completedDates[i] == t.completedDates[i];
  }
}

=== FILE: login.dfy ===
/** The login page: one form that either logs in an existing user or signs up a
    new one. There is no password check; the password field is never read. The
    new user's id and timestamp come from the caller. */
module LoginPage {
  import opened Wrappers
  import opened Types
  import opened Db

  datatype Form = Form(name: string, email: string, password: string)

  /** What a submission leaves behind: the store, the user handed to the
      application (if any), the message shown, and the busy flag. */
  datatype Submission = Submission(db: Db, loggedIn: Option<User>, error: Option<string>, isSubmitting: bool)

  const UserNotFound := "User not found. Try signing up!"
  const UserExists := "User already exists with this email."
  const DatabaseError := "Database error. Please try again."
  const DefaultName := "Power User"

  function AvatarFor(email: string): string {
    "https://picsum.photos/seed/" + email + "/200"
  }

  /** The record a signup creates. */
  function NewUser(f: Form, id: string, now: string): User {
    User(id, if f.name == "" then DefaultName else f.name, f.email, AvatarFor(f.email), 1, 0, now)
  }

  /** Submit the form in login mode (`isLogin`) or signup mode. */
  function HandleSubmit(isLogin: bool, f: Form, db: Db, id: string, now: string): (r: Submission)
    ensures !r.isSubmitting
    ensures r.loggedIn.Some? <==> r.error.None?
    ensures !Serves(db, Users) ==> r == Submission(db, None, Some(DatabaseError), false)
    ensures isLogin ==> r.db == db
    ensures isLogin && Serves(db, Users) && f.email !in db.users.value ==> r.error == Some(UserNotFound)
    ensures isLogin && Serves(db, Users) && f.email in db.users.value ==> r.loggedIn == Some(db.users.value[f.email])
    ensures !isLogin && Serves(db, Users) && f.email in db.users.value ==>
              r.error == Some(UserExists) && r.db == db
    ensures !isLogin && Serves(db, Users) && f.email !in db.users.value ==>
              && r.loggedIn == Some(NewUser(f, id, now))
              && var u := r.loggedIn.value;
              && u.email == f.email && u.streak == 1 && u.totalPoints == 0
              && u.name == (if f.name == "" then DefaultName else f.name)
              && GetUser(r.db, f.email) == Ok(Some(NewUser(f, id, now)))
              && r.db.tasks == db.tasks && r.db.categories == db.categories
              && (forall e :: e != f.email ==>
                    (e in r.db.users.value <==> e in db.users.value) &&
                    (e in db.users.value ==> r.db.users.value[e] == db.users.value[e]))
  {
    match GetUser(db, f.email)
    case Err(_) => Submission(db, None, Some(DatabaseError), false)
    case Ok(existing) =>
      if isLogin then
        match existing
        case None => Submission(db, None, Some(UserNotFound), false)
        case Some(u) => Submission(db, Some(u), None, false)
      else if existing.Some? then Submission(db, None, Some(UserExists), false)
      else
        var u := NewUser(f, id, now);
        match SaveUser(db, u)
        case Err(_) => Submission(db, None, Some(DatabaseError), false)
        case Ok(db') => Submission(db', Some(u), None, false)
  }

  /** The password plays no part in either mode. */
  lemma PasswordIgnored(isLogin: bool, f: Form, password: string, db: Db, id: string, now: string)
    ensures HandleSubmit(isLogin, f.(password := password), db, id, now) == HandleSubmit(isLogin, f, db, id, now)
  {
  }

  /** A successful signup is followed by a login with the same email that yields
      the new user, and a second signup with that email is refused. */
  lemma SignUpThenLogIn(f: Form, g: Form, db: Db, id: string, now: string, id2: string, now2: string)
    requires HandleSubmit(false, f, db, id, now).loggedIn.Some?
    requires g.email == f.email
    ensures var db' := HandleSubmit(false, f, db, id, now).db;
            && HandleSubmit(true, g, db', id2, now2).loggedIn == Some(NewUser(f, id, now))
            && HandleSubmit(false, g, db', id2, now2).error == Some(UserExists)
  {
  }
}

=== FILE: seqs.dfy ===
/** Order-preserving filtering and summation over sequences: the `filter` and
    `reduce` idioms every page of the tracker is built from. */
module Seqs {

  /** The elements of `s` that satisfy `keep`, in their original order. */
  function Filter<T(!new)>(s: seq<T>, keep: T -> bool): (r: seq<T>)
    ensures |r| <= |s|
    ensures forall x :: x in r <==> x in s && keep(x)
  {
    if s == [] then []
    else (if keep(s[0]) then [s[0]] else []) + Filter(s[1..], keep)
  }

  /** Filtering distributes over concatenation, so relative order is kept. */
  lemma {:induction false} FilterConcat<T(!new)>(a: seq<T>, b: seq<T>, keep: T -> bool)
    ensures Filter(a + b, keep) == Filter(a, keep) + Filter(b, keep)
  {
    if a == [] {
      assert a + b == b;
    } else {
      assert (a + b)[1..] == a[1..] + b;
      FilterConcat(a[1..], b, keep);
    }
  }

  /** A filter that rejects nothing is the identity. */
  lemma {:induction false} FilterKeepsAll<T(!new)>(s: seq<T>, keep: T -> bool)
    requires forall x :: x in s ==> keep(x)
    ensures Filter(s, keep) == s
  {
    if s != [] {
      assert s[0] in s;
      forall x | x in s[1..] ensures keep(x) {
        assert x in s;
      }
      FilterKeepsAll(s[1..], keep);
    }
  }

  /** A filter that keeps nothing gives the empty sequence. */
  lemma {:induction false} FilterDropsAll<T(!new)>(s: seq<T>, keep: T -> bool)
    requires forall x :: x in s ==> !keep(x)
    ensures Filter(s, keep) == []
  {
    if s != [] {
      assert s[0] in s;
      forall x | x in s[1..] ensures !keep(x) {
        assert x in s;
      }
      FilterDropsAll(s[1..], keep);
    }
  }

  /** No two elements of `s` share a key. */
  predicate DistinctKeys<T>(s: seq<T>, key: T -> string) {
    forall i, j :: 0 <= i < j < |s| ==> key(s[i]) != key(s[j])
  }

  /** The sum of `f` over the elements of `s` (a left-to-right `reduce`). */
  function SumBy<T>(s: seq<T>, f: T -> int): int
  {
    if s == [] then 0 else SumBy(s[..|s| - 1], f) + f(s[|s| - 1])
  }

  lemma {:induction false} SumByConcat<T>(a: seq<T>, b: seq<T>, f: T -> int)
    ensures SumBy(a + b, f) == SumBy(a, f) + SumBy(b, f)
  {
    if b == [] {
      assert a + b == a;
    } else {
      assert (a + b)[..|a + b| - 1] == a + b[..|b| - 1];
      assert (a + b)[|a + b| - 1] == b[|b| - 1];
      SumByConcat(a, b[..|b| - 1], f);
    }
  }

  /** Replacing one element changes the sum by exactly the difference at that element. */
  lemma {:induction false} SumByUpdate<T>(s: seq<T>, j: nat, x: T, f: T -> int)
    requires j < |s|
    ensures SumBy(s[j := x], f) == SumBy(s, f) - f(s[j]) + f(x)
  {
    assert s == s[..j] + [s[j]] + s[j + 1..];
    assert s[j := x] == s[..j] + [x] + s[j + 1..];
    SumByConcat(s[..j] + [s[j]], s[j + 1..], f);
    SumByConcat(s[..j] + [x], s[j + 1..], f);
    SumByConcat(s[..j], [s[j]], f);
    SumByConcat(s[..j], [x], f);
    assert SumBy([s[j]], f) == f(s[j]) by { assert [s[j]][..0] == []; }
    assert SumBy([x], f) == f(x) by { assert [x][..0] == []; }
  }

  /** `f` on the elements `keep` accepts, zero elsewhere. */
  function Masked<T>(keep: T -> bool, f: T -> int): T -> int {
    (x: T) => if keep(x) then f(x) else 0
  }

  /** Filtering a one-element sequence keeps it or drops it. */
  lemma FilterSingleton<T(!new)>(x: T, keep: T -> bool)
    ensures Filter([x], keep) == if keep(x) then [x] else []
  {
    assert [x][1..] == [];
  }

  lemma SumBySingleton<T>(x: T, f: T -> int)
    ensures SumBy([x], f) == f(x)
  {
    assert [x][..0] == [];
  }

  /** Appending one element adds its value to the sum. */
  lemma SumBySnoc<T>(s: seq<T>, x: T, f: T -> int)
    ensures SumBy(s + [x], f) == SumBy(s, f) + f(x)
  {
    assert (s + [x])[..|s|] == s;
  }

  /** One step of `SumByFilter`: the equation carries over to a sequence one
      element longer. */
  lemma SumByFilterStep<T(!new)>(init: seq<T>, last: T, keep: T -> bool, f: T -> int)
    requires SumBy(Filter(init, keep), f) == SumBy(init, Masked(keep, f))
    ensures SumBy(Filter(init + [last], keep), f) == SumBy(init + [last], Masked(keep, f))
  {
    var kept := if keep(last) then [last] else [];
    FilterConcat(init, [last], keep);
    FilterSingleton(last, keep);
    SumByConcat(Filter(init, keep), kept, f);
    assert SumBy(kept, f) == Masked(keep, f)(last) by {
      if keep(last) {
        SumBySingleton(last, f);
      }
    }
    SumBySnoc(init, last, Masked(keep, f));
  }

  /** Summing over the kept elements is summing over all elements with the
      rejected ones counted as zero. */
  lemma {:induction false} SumByFilter<T(!new)>(s: seq<T>, keep: T -> bool, f: T -> int)
    ensures SumBy(Filter(s, keep), f) == SumBy(s, Masked(keep, f))
  {
    if s != [] {
      var init := s[..|s| - 1];
      SumByFilter(init, keep, f);
      SumByFilterStep(init, s[|s| - 1], keep, f);
      assert init + [s[|s| - 1]] == s;
    }
  }
}

=== FILE: settings.dfy ===
/** The settings page: editing the catalogue of categories and tasks. Every
    operation maps the current lists to new ones; fresh ids are supplied by the
    caller (the application draws them at random and does not check them for
    uniqueness). */
module Settings {
  import opened Wrappers
  import opened Types
  import Seqs
  import Dashboard

  /** The contents of the new-task form. */
  datatype TaskDraft = TaskDraft(name: string, points: int, icon: string, categoryId: string)

  /** The contents of the new-category form. */
  datatype CategoryDraft = CategoryDraft(name: string, color: string, icon: string)

  /** The defaults the new-task form opens with. */
  function InitialTaskDraft(cs: seq<Category>): (d: TaskDraft)
    ensures d.name == "" && d.points == 50 && d.icon == "Zap"
    ensures d.categoryId == FirstCategoryId(cs)
  {
    TaskDraft("", 50, "Zap", FirstCategoryId(cs))
  }

  /** Append a task built from the draft, unless the draft has no name. */
  function AddTask(ts: seq<Task>, d: TaskDraft, id: string): (r: seq<Task>)
    ensures d.name == "" ==> r == ts
    ensures d.name != "" ==> |r| == |ts| + 1 && r[..|ts|] == ts
    ensures d.name != "" ==>
              var t := r[|ts|];
              && t.id == id && t.categoryId == d.categoryId && t.name == d.name
              && t.points == d.points && t.icon == d.icon
              && t.completedDates == [] && t.reminder == None
  {
    if d.name == "" then ts
    else ts + [Task(id, d.categoryId, d.name, d.points, d.icon, [], None)]
  }

  /** Append an enabled category built from the draft, unless it has no name. */
  function AddCategory(cs: seq<Category>, d: CategoryDraft, id: string): (r: seq<Category>)
    ensures d.name == "" ==> r == cs
    ensures d.name != "" ==> |r| == |cs| + 1 && r[..|cs|] == cs
    ensures d.name != "" ==>
              var c := r[|cs|];
              c.id == id && c.name == d.name && c.icon == d.icon && c.color == d.color && c.enabled
  {
    if d.name == "" then cs
    else cs + [Category(id, d.name, d.icon, d.color, true)]
  }

  function KeepTask(id: string): Task -> bool {
    (t: Task) => t.id != id
  }

  /** Delete every task with id `id`. */
  function RemoveTask(ts: seq<Task>, id: string): (r: seq<Task>)
    ensures forall t :: t in r <==> t in ts && t.id != id
    ensures |r| <= |ts|
  {
    Seqs.Filter(ts, KeepTask(id))
  }

  /** Removal keeps the remaining tasks in order, and removing an id no task has
      changes nothing. */
  lemma RemoveTaskKeepsOrder(a: seq<Task>, b: seq<Task>, id: string)
    ensures RemoveTask(a + b, id) == RemoveTask(a, id) + RemoveTask(b, id)
    ensures (forall t :: t in a ==> t.id != id) ==> RemoveTask(a, id) == a
  {
    Seqs.FilterConcat(a, b, KeepTask(id));
    if forall t :: t in a ==> t.id != id {
      Seqs.FilterKeepsAll(a, KeepTask(id));
    }
  }

  /** Adding a task under an id no task has, then removing that id, gives back the
      original list. */
  lemma AddThenRemoveTask(ts: seq<Task>, d: TaskDraft, id: string)
    requires forall t :: t in ts ==> t.id != id
    ensures RemoveTask(AddTask(ts, d, id), id) == ts
  {
    RemoveTaskKeepsOrder(ts, [], id);
    if d.name != "" {
      var t := Task(id, d.categoryId, d.name, d.points, d.icon, [], None);
      RemoveTaskKeepsOrder(ts, [t], id);
      assert RemoveTask([t], id) == [];
    }
  }

  /** The catalogue: both lists the settings page edits together. */
  datatype Catalogue = Catalogue(categories: seq<Category>, tasks: seq<Task>)

  function KeepCategory(id: string): Category -> bool {
    (c: Category) => c.id != id
  }

  function OutsideCategory(id: string): Task -> bool {
    (t: Task) => t.categoryId != id
  }

  /** Delete the categories with id `id` together with the tasks filed under it. */
  function RemoveCategory(cat: Catalogue, id: string): (r: Catalogue)
    ensures forall c :: c in r.categories <==> c in cat.categories && c.id != id
    ensures forall t :: t in r.tasks <==> t in cat.tasks && t.categoryId != id
    ensures |r.categories| <= |cat.categories| && |r.tasks| <= |cat.tasks|
  {
    Catalogue(Seqs.Filter(cat.categories, KeepCategory(id)), Seqs.Filter(cat.tasks, OutsideCategory(id)))
  }

  /** Removing a category keeps the remaining categories and tasks in their
      order: it distributes over concatenating two catalogues, and it leaves a
      catalogue that does not mention the id as it is. */
  lemma RemoveCategoryKeepsOrder(a: Catalogue, b: Catalogue, id: string)
    ensures RemoveCategory(Catalogue(a.categories + b.categories, a.tasks + b.tasks), id) ==
              Catalogue(RemoveCategory(a, id).categories + RemoveCategory(b, id).categories,
                        RemoveCategory(a, id).tasks + RemoveCategory(b, id).tasks)
    ensures (forall c :: c in a.categories ==> c.id != id) && (forall t :: t in a.tasks ==> t.categoryId != id) ==>
              RemoveCategory(a, id) == a
  {
    Seqs.FilterConcat(a.categories, b.categories, KeepCategory(id));
    Seqs.FilterConcat(a.tasks, b.tasks, OutsideCategory(id));
    if (forall c :: c in a.categories ==> c.id != id) && (forall t :: t in a.tasks ==> t.categoryId != id) {
      Seqs.FilterKeepsAll(a.categories, KeepCategory(id));
      Seqs.FilterKeepsAll(a.tasks, OutsideCategory(id));
    }
  }

  /** Flip the enabled flag of the categories with id `id`. */
  function ToggleCategory(cs: seq<Category>, id: string): (r: seq<Category>)
    ensures |r| == |cs|
    ensures forall i :: 0 <= i < |cs| ==>
              r[i].(enabled := cs[i].enabled) == cs[i] &&
              (r[i].enabled <==> (cs[i].enabled != (cs[i].id == id)))
  {
    seq(|cs|, i requires 0 <= i < |cs| => if cs[i].id == id then cs[i].(enabled := !cs[i].enabled) else cs[i])
  }

  /** Toggling the same category twice restores the list. */
  lemma ToggleCategoryInvolution(cs: seq<Category>, id: string)
    ensures ToggleCategory(ToggleCategory(cs, id), id) == cs
  {
  }

  /** The number of tasks filed under category `catId`. */
  function TaskCount(ts: seq<Task>, catId: string): nat {
    |Seqs.Filter(ts, (t: Task) => t.categoryId == catId)|
  }

  /** Adding a named task raises the count of its category by one and leaves the
      other counts alone. */
  lemma {:induction false} AddTaskCounts(ts: seq<Task>, d: TaskDraft, id: string, catId: string)
    ensures TaskCount(AddTask(ts, d, id), catId) ==
              TaskCount(ts, catId) + (if d.name != "" && d.categoryId == catId then 1 else 0)
  {
    if d.name != "" {
      var t := Task(id, d.categoryId, d.name, d.points, d.icon, [], None);
      Seqs.FilterConcat(ts, [t], (x: Task) => x.categoryId == catId);
      assert [t][1..] == [];
    }
  }

  /** A task added from the form's defaults, once named, is filed under the first
      category, which is also the tab the dashboard opens on: it shows in that
      tab and raises that category's count by one. With no categories it is
      filed under the empty id. */
  lemma InitialDraftLandsInFirstTab(cs: seq<Category>, ts: seq<Task>, name: string, id: string)
    requires name != ""
    ensures var r := AddTask(ts, InitialTaskDraft(cs).(name := name), id);
            && |r| == |ts| + 1
            && r[|ts|] in Dashboard.FilteredTasks(r, FirstCategoryId(cs))
            && TaskCount(r, FirstCategoryId(cs)) == TaskCount(ts, FirstCategoryId(cs)) + 1
            && (cs != [] ==> r[|ts|].categoryId == cs[0].id)
            && (cs == [] ==> r[|ts|].categoryId == "")
  {
    AddTaskCounts(ts, InitialTaskDraft(cs).(name := name), id, FirstCategoryId(cs));
  }

  /** Once a category is removed, no task is counted under it. */
  lemma RemoveCategoryEmptiesCount(cat: Catalogue, id: string)
    ensures TaskCount(RemoveCategory(cat, id).tasks, id) == 0
  {
    Seqs.FilterDropsAll(RemoveCategory(cat, id).tasks, (t: Task) => t.categoryId == id);
  }
}

=== FILE: types.dfy ===
/** The plain records the tracker stores and edits: users, tasks and categories,
    with the built-in default categories the application starts from. */
module Types {
  import opened Wrappers
  import Seqs

  datatype Frequency = Daily | Weekly

  /** A reminder attached to a task: time of day, recurrence and an on/off switch. */
  datatype Reminder = Reminder(time: string, frequency: Frequency, enabled: bool)

  /** A user, keyed by email in the store. `streak` and `totalPoints` are floating-point
      numbers in the application; the model takes them as unbounded integers. */
  datatype User = User(
    id: string,
    name: string,
    email: string,
    avatar: string,
    streak: int,
    totalPoints: int,
    lastActive: string)

  /** A task. `completedDates` holds one ISO-8601 timestamp ("stamp") per completion,
      in the order the completions were recorded. */
  datatype Task = Task(
    id: string,
    categoryId: string,
    name: string,
    points: int,
    icon: string,
    completedDates: seq<string>,
    reminder: Option<Reminder>)

  datatype Category = Category(
    id: string,
    name: string,
    icon: string,
    color: string,
    enabled: bool)

  /** The key a task is stored under. */
  function TaskKey(t: Task): string { t.id }

  /** The key a category is stored under. */
  function CategoryKey(c: Category): string { c.id }

  /** No two tasks share an id. Nothing in the application enforces this: ids are
      random strings chosen by the caller. */
  predicate UniqueTaskIds(ts: seq<Task>) {
    Seqs.DistinctKeys(ts, TaskKey)
  }

  predicate UniqueCategoryIds(cs: seq<Category>) {
    Seqs.DistinctKeys(cs, CategoryKey)
  }

  /** The four categories a first run starts with. */
  const InitialCategories: seq<Category> := [
    Category("cat-1", "Study", "GraduationCap", "#8B5CF6", true),
    Category("cat-2", "Skills", "Code", "#10B981", true),
    Category("cat-3", "Physical", "Dumbbell", "#F43F5E", true),
    Category("cat-4", "Fun", "Gamepad2", "#F59E0B", true)
  ]

  /** The id of the first category, or the empty string when there is none: the
      initial selection of the dashboard and of the new-task form. */
  function FirstCategoryId(cs: seq<Category>): (r: string)
    ensures cs == [] ==> r == ""
    ensures cs != [] ==> r == cs[0].id
  {
    if |cs| > 0 then cs[0].id else ""
  }
}

=== FILE: wrappers.dfy ===
/** Optional values and success/failure results: a record that may be missing,
    and a request that either completes with a value or fails with an error. */
module Wrappers {

  /** A value that may be absent. */
  datatype Option<+T> = None | Some(value: T) {

    /** The value, or `default` when absent. */
    function GetOr(default: T): T {
      match this
      case Some(v) => v
      case None => default
    }
  }

  /** The outcome of an operation that either resolves with a value or rejects with an error. */
  datatype Result<+T, +E> = Ok(value: T) | Err(error: E)

  /** The result of an operation that resolves with nothing of interest. */
  datatype Unit = Unit
}
